=== FILE: README.md ===
# LinkedIn import, modelled in Dafny

This project models the LinkedIn data import of the portfolio site: the
`POST` handler of `src/app/api/import/linkedin/route.ts` and its two helpers,
`parseCSV` and `parseLinkedInDate`.

The handler takes up to four uploaded CSV exports: Profile, Positions,
Education and Skills. It processes them in that order:

- It upserts the profile with id `"default"` from the first profile row.
- For each of the other three documents that was sent, it deletes the whole
  table and creates one record per usable row. The record's `order` is the
  row's index.
- It replies with a count per category.
- If any store call throws, it replies with the status-500 error. Nothing
  already written is undone.

Modules, in dependency order:

- `Wrappers` (wrappers.dfy): `Option`.
- `Text` (text.dfy): the JavaScript string operations the parser uses.
  - `trim` with the ECMAScript whitespace set.
  - `split` on one character.
  - The replacement `/^"|"$/g`, both as a closed form and as the engine's
    scan, with proof that the two agree.
- `Tokenizer` (tokenizer.dfy): `parseCSV`.
  - The global match of `/("([^"]*)"|[^,]*)/g` follows section 22.2 of
    ECMA-262. An empty match advances the scan by one position, so every
    non-empty plain field is followed by an extra empty match.
  - Building each row follows `forEach`, so a repeated header keeps its
    last cell.
- `Dates` (dates.dfy): `parseLinkedInDate`.
  - `parseInt` with no radix (section 19.2.5 of ECMA-262).
  - `new Date(year, month, 1)` (section 21.4.2.1), which reads the years
    0 to 99 as 1900 to 1999.
- `Mapping` (mapping.dfy): turning a row into profile fields or an
  experience, education or skill record.
  - A missing column (`undefined`) is `None`.
  - `v || null` and `v || "Degree"` are written out.
- `Store` (store.dfy): the database reduced to the four tables the import
  writes, and the store calls the handler issues.
- `LinkedInImport` (import.dfy): the handler.
  - `Post` follows the code step by step.
  - `Plan` is the list of store calls one import issues. `Exec` issues them
    until the call numbered `failAt` throws.
  - `Post` is proved to produce exactly `Run = Exec(Plan)`.
- `ImportProperties` (properties.dfy): what an import does, stated
  independently of the call sequence.
  - `Effect` and `Imports` give the final store and the counters.
  - Further lemmas cover the failure cases, idempotence, absent documents
    and the row order.

Store failures are modelled by `failAt: Option<nat>`, the number of the store
call that throws. The calls the handler issues never depend on what the store
returns. Each store call is taken to be atomic: it either takes full effect
or throws and changes nothing. Under that assumption every pattern of store
failure is one value of `failAt`.

Three behaviours of the code are easy to misread, and the model keeps them
as written:

- `order` is the raw row index `i`. A dropped row leaves a gap; the numbers
  do not count the records already created
  (`ImportProperties.ExperienceRecordsFollowRows`).
- A non-empty date token with one or two parts and a non-numeric year is
  not `null`. It is an invalid `Date`, which is truthy, so the row passes
  the `if (startDate)` test and its create call is issued
  (`Dates.NonNumericYearIsInvalidDate`).
- Rows are not built by pairing header `k` with field `k`. The match list
  has an empty match after every plain field, so for `a,b` / `x,y` the second
  header receives `""` (`Tokenizer.FieldsAreNotZipped`).

## Model

Every source cell refers to `src/app/api/import/linkedin/route.ts`.

| member | source | states |
|---|---|---|
| Text.Trim | src/app/api/import/linkedin/route.ts:35 | The result has no whitespace at either end. It is no longer than the input. It is empty exactly when the input is all whitespace. |
| Text.TrimOfPadded | src/app/api/import/linkedin/route.ts:47 | Trimming a trimmed core padded with whitespace on both sides gives back exactly the core. |
| Text.TrimTrimmed | src/app/api/import/linkedin/route.ts:35 | A string with no whitespace at either end trims to itself. |
| Text.TrimJoined | src/app/api/import/linkedin/route.ts:100 | Joining two trimmed names with a space and trimming gives the other name alone when one is empty, and the joined string otherwise. |
| Text.TrimIdempotent | src/app/api/import/linkedin/route.ts:35 | Trimming twice is the same as trimming once. |
| Text.Split | src/app/api/import/linkedin/route.ts:35 | `split` on one character gives at least one piece, and no piece contains the separator. |
| Text.JoinSplit | src/app/api/import/linkedin/route.ts:35 | Joining the pieces with the separator gives back the input, so nothing is lost. |
| Text.SplitJoin | src/app/api/import/linkedin/route.ts:62 | Separator-free pieces, joined and split again, come back unchanged. |
| Text.SplitCount | src/app/api/import/linkedin/route.ts:62-63 | There is one more piece than there are separators. |
| Text.StripOuterQuotesIsReplaceScan | src/app/api/import/linkedin/route.ts:38 | The closed form of the quote-stripping `replace` agrees with the engine's left-to-right scan on every string. |
| Text.StripWrapped | src/app/api/import/linkedin/route.ts:47 | Wrapping any string in quotes and stripping them gives the string back, even when it starts or ends with a quote. |
| Text.StripUnquoted | src/app/api/import/linkedin/route.ts:47 | A string with no quote at either end is left alone. |
| Tokenizer.TokenEnd | src/app/api/import/linkedin/route.ts:42 | The end computed at position p is where the backtracking engine's match ends: the quoted alternative when a closing quote follows, and otherwise the longest comma-free run. |
| Tokenizer.MatchAtUnique | src/app/api/import/linkedin/route.ts:42 | The engine's match at a position is unique. |
| Tokenizer.Matches | src/app/api/import/linkedin/route.ts:42 | The global match list is never empty, so the empty-list fallback never applies. |
| Tokenizer.RebuildMatches | src/app/api/import/linkedin/route.ts:42 | Round trip: the matches, with the commas the scan skipped put back, rebuild the line. |
| Tokenizer.MatchShapes | src/app/api/import/linkedin/route.ts:42 | Every match is either a quoted segment without inner quotes or free of commas. The last match is always empty. |
| Tokenizer.QuotedFieldIsOneMatch | src/app/api/import/linkedin/route.ts:42 | A quoted segment at the start of a line is one match, and its commas are kept. |
| Tokenizer.QuotedFieldThenEmpty | src/app/api/import/linkedin/route.ts:42 | After a quoted first field and a comma, the second match is empty. |
| Tokenizer.PlainFieldThenEmpty | src/app/api/import/linkedin/route.ts:42 | A plain first field followed by a comma is the first match, and the second match is empty. |
| Tokenizer.EmptyMatchAtComma | src/app/api/import/linkedin/route.ts:42 | Wherever the scan stands, a non-empty match that stops at a comma is followed by an empty match. |
| Tokenizer.CleanQuoted | src/app/api/import/linkedin/route.ts:47 | A quoted match is stored as its contents, with inner whitespace and commas kept. |
| Tokenizer.CleanPlain | src/app/api/import/linkedin/route.ts:46-47 | An unpadded cell without outer quotes is stored unchanged; in particular a missing match gives `""`. |
| Tokenizer.CleanCell | src/app/api/import/linkedin/route.ts:46-47 | A cell without any double quote is only trimmed. |
| Tokenizer.BuildRow | src/app/api/import/linkedin/route.ts:45-49 | The row's keys are exactly the header names. A header holds the cell of its last occurrence. |
| Tokenizer.ParseRow | src/app/api/import/linkedin/route.ts:42-49 | Every header is a key. A header that is not repeated later holds match k, trimmed and quote-stripped, or `""` past the end of the match list. |
| Tokenizer.ParseCsv | src/app/api/import/linkedin/route.ts:34-55 | There is one row per newline in the trimmed document, blank lines included. Row i is read from line i + 1 under the header line's names. |
| Tokenizer.LinesRebuildDocument | src/app/api/import/linkedin/route.ts:35 | The lines joined back with newlines are the trimmed document. |
| Tokenizer.HeaderOnlyHasNoRows | src/app/api/import/linkedin/route.ts:36 | A document with no second line gives no rows. |
| Tokenizer.TwoHeaders | src/app/api/import/linkedin/route.ts:38 | The header line `a,b` names the columns `a` and `b`. |
| Tokenizer.QuotedTwoHeaders | src/app/api/import/linkedin/route.ts:38 | The quoted header line `"a","b"` also names the columns `a` and `b`: each header name loses its outer quotes. |
| Tokenizer.Headers | src/app/api/import/linkedin/route.ts:38 | The header line gives one column per comma plus one; every comma splits, quoted or not. |
| Tokenizer.QuotedFirstField | src/app/api/import/linkedin/route.ts:42-48 | A quoted first field is stored whole under the first header, without its quotes. |
| Tokenizer.PlainFirstField | src/app/api/import/linkedin/route.ts:42-48 | An unquoted first field without commas, ending the line or followed by a comma, is stored trimmed under the first header, whatever the headers are; this covers every line of a one-column document. |
| Tokenizer.PlainPairRow | src/app/api/import/linkedin/route.ts:42-48 | Under the headers `a,b`, the line `x,y` gives `{a: x, b: ""}`. |
| Tokenizer.FieldsAreNotZipped | src/app/api/import/linkedin/route.ts:34-55 | The document `a,b` / `x,y` parses to exactly `[{a: x, b: ""}]`; `y` is stored nowhere. |
| Dates.ParseIntShowNat | src/app/api/import/linkedin/route.ts:69 | `parseInt` of a decimal numeral followed by a non-digit reads the numeral's value. The exception is `0x`, which starts a hexadecimal literal. |
| Dates.ParseIntNoDigits | src/app/api/import/linkedin/route.ts:69 | Text that starts with neither a digit, a sign nor whitespace gives NaN. |
| Dates.ParseInt | src/app/api/import/linkedin/route.ts:69-72 | Empty or all-whitespace text gives NaN. Its value on every input is fixed by `ParseIntSkipsSpace`, `ParseIntSign`, `ParseDigitsReads` and `ParseIntNoDigits`. |
| Dates.ParseIntReadsDigit | src/app/api/import/linkedin/route.ts:69-72 | A number is read only from text holding a decimal or hexadecimal digit. |
| Dates.ParseIntSkipsSpace | src/app/api/import/linkedin/route.ts:69-72 | Leading whitespace is skipped: text that does not start with whitespace reads the same with whitespace put in front. |
| Dates.ParseIntSign | src/app/api/import/linkedin/route.ts:69-72 | After the whitespace, `-` negates the unsigned reading of what follows, `+` or no sign keeps it, and NaN stays NaN. |
| Dates.ParseDigitsReads | src/app/api/import/linkedin/route.ts:69-72 | The unsigned reading of an optional `0x`/`0X` prefix and a run of digits in the base it selects, leading zeros allowed, ended by a non-digit, is the digits' value. |
| Dates.ParseIntUnsigned | src/app/api/import/linkedin/route.ts:69-72 | `parseInt` of such an unsigned numeral, for example `05` or `0x1A`, is the digits' value. |
| Dates.NewDate | src/app/api/import/linkedin/route.ts:70 | NaN gives the invalid date. Otherwise the date is the first of the given month, a year from 0 to 99 becomes 1900 plus that year, and any other year is kept. |
| Dates.NewDateSameYear | src/app/api/import/linkedin/route.ts:70 | Two years give the same date exactly when they are equal or one is the two-digit form of the other. |
| Dates.MonthIndex | src/app/api/import/linkedin/route.ts:64-68 | The month lookup, with 0 as its fallback, is a month below 12, and an unknown name gives January. |
| Dates.MonthTable | src/app/api/import/linkedin/route.ts:64-67 | The table maps the k-th English abbreviation to month index k. |
| Dates.ParseLinkedInDate | src/app/api/import/linkedin/route.ts:58-76 | The result is `null` exactly when the token is empty or contains two or more spaces. |
| Dates.MonthYearDate | src/app/api/import/linkedin/route.ts:63-70 | A token `<month> <year>` is the first of the looked-up month (January if unknown) in `parseInt(year)`. |
| Dates.YearOnlyDate | src/app/api/import/linkedin/route.ts:71-72 | A token `<year>` is 1 January of `parseInt(year)`. |
| Dates.ExportMonthYear | src/app/api/import/linkedin/route.ts:62-70 | A well-formed `Mon YYYY` token is the first day of that month and year. |
| Dates.ExportYear | src/app/api/import/linkedin/route.ts:71-72 | A bare year numeral is 1 January of that year. |
| Dates.NonNumericYearIsInvalidDate | src/app/api/import/linkedin/route.ts:63-73 | A one- or two-part token whose year has no digits is the invalid date, not `null`. |
| Mapping.DateColumn | src/app/api/import/linkedin/route.ts:127-128 | A date column parses exactly when the cell is present, non-empty and has at most one space. |
| Mapping.MapProfile | src/app/api/import/linkedin/route.ts:95-110 | The name is trimmed. Headline, summary and email are copied when non-empty and are `null` exactly when missing or empty. |
| Mapping.ProfileName | src/app/api/import/linkedin/route.ts:100 | With both name cells present and trimmed, the name is first, space, last. An empty cell on either side leaves the other name alone. |
| Mapping.ProfileNameUndefined | src/app/api/import/linkedin/route.ts:100 | A missing name column prints as `undefined`: with both missing the name is `undefined undefined`, with one missing it is the other name joined to `undefined` (or `undefined` alone when the other cell is empty). |
| Mapping.MapExperience | src/app/api/import/linkedin/route.ts:126-142 | A row becomes a record exactly when its start date parses. Company and title are copied as read, description and location are `null` when missing or empty, and both dates are the parsed columns. `order` is the row index. `current` holds exactly when there is no end date. |
| Mapping.PresentIsNotCurrent | src/app/api/import/linkedin/route.ts:128-139 | An end column reading `Present` parses to the invalid date, so the position is not current. |
| Mapping.MapEducation | src/app/api/import/linkedin/route.ts:157-170 | A row becomes a record exactly when its start date parses, with `order` equal to the row index. The school is copied as read and both dates are the parsed columns. The degree is the `Degree Name` cell when non-empty and `Degree` otherwise. |
| Mapping.MapSkill | src/app/api/import/linkedin/route.ts:186-194 | A skill is created exactly when `Name` is non-empty, and then it is `(Name, "General", 80, i)`. |
| Store.Upsert | src/app/api/import/linkedin/route.ts:96-111 | Only the `default` profile is written, with the given fields. Columns the import does not write are kept on update. |
| Store.UpsertIdempotent | src/app/api/import/linkedin/route.ts:96-111 | Upserting the same fields twice is the same as upserting them once. |
| Store.Apply | src/app/api/import/linkedin/route.ts:96-196 | A store call changes only the table it targets. |
| LinkedInImport.ImportProfile | src/app/api/import/linkedin/route.ts:89-114 | The profile step issues exactly the profile part of the plan. On a throw it stops with the store as it was. |
| LinkedInImport.ImportRecords | src/app/api/import/linkedin/route.ts:117-146 | The positions, education and skills loops issue exactly the delete and the creates of the plan. On a throw they stop. |
| LinkedInImport.Post | src/app/api/import/linkedin/route.ts:78-208 | For every failure schedule, the handler's reply and final store are exactly those of issuing `Plan(u)` until the call numbered `failAt` throws. |
| ImportProperties.ExecWithoutFault | src/app/api/import/linkedin/route.ts:79-204 | Without a throw, every call takes effect, the counters tally every call and the reply is the success body. |
| ImportProperties.ExecAtFault | src/app/api/import/linkedin/route.ts:205-207 | When call k throws, the reply is the error and the store holds the effects of exactly the calls before k. Nothing is rolled back. |
| ImportProperties.RunIsPrefix | src/app/api/import/linkedin/route.ts:78-208 | Whatever fails, the final store is the effect of some prefix of the plan. |
| ImportProperties.ProfileStepsEffect | src/app/api/import/linkedin/route.ts:94-113 | The profile step is one upsert counted as 1 when there is a row, and nothing otherwise. |
| ImportProperties.ReplaceExperience | src/app/api/import/linkedin/route.ts:123-143 | Delete-all followed by one create per record leaves the experience table equal to the records, in order. |
| ImportProperties.CountExperience | src/app/api/import/linkedin/route.ts:123-143 | The same calls raise the experience counter by the number of records; the delete-all is not counted. |
| ImportProperties.ReplaceEducation | src/app/api/import/linkedin/route.ts:154-172 | The same replace semantics, for the education table. |
| ImportProperties.CountEducation | src/app/api/import/linkedin/route.ts:154-172 | The education counter rises by the number of records. |
| ImportProperties.ReplaceSkills | src/app/api/import/linkedin/route.ts:183-196 | The same replace semantics, for the skill table. |
| ImportProperties.CountSkills | src/app/api/import/linkedin/route.ts:183-196 | The skills counter rises by the number of records. |
| ImportProperties.PlanEffect | src/app/api/import/linkedin/route.ts:88-199 | The whole plan produces the reference store `Effect` and the reference counters `Imports`. |
| ImportProperties.RunWithoutFault | src/app/api/import/linkedin/route.ts:78-204 | An import in which no call throws replies with `Imports(u)` and leaves `Effect(u, s)`. The profile table is upserted from row 0, each sent table holds exactly its kept rows, and every other table is unchanged. |
| ImportProperties.ImportTwice | src/app/api/import/linkedin/route.ts:117-199 | Importing the same upload twice is the same as importing it once, with the same store and the same reply. |
| ImportProperties.PlanTables | src/app/api/import/linkedin/route.ts:88-199 | The plan writes only tables whose document was sent, in the order profile, experience, education, skills. |
| ImportProperties.AbsentDocumentUntouched | src/app/api/import/linkedin/route.ts:117-118 | A table whose document was not sent is unchanged, whichever call throws. |
| ImportProperties.FailureSkipsLaterTables | src/app/api/import/linkedin/route.ts:205-207 | A throw replies with the error and leaves every later category's table as it was. |
| ImportProperties.FailureKeepsEarlierTables | src/app/api/import/linkedin/route.ts:205-207 | A throw leaves every earlier category's table in its final imported state; those commits are kept. |
| ImportProperties.ReportedCounts | src/app/api/import/linkedin/route.ts:81-113 | The profile counter is 1 exactly when the profile document has a data line, and then the `default` profile exists. Every other counter equals the size of its table afterwards, or 0 when the document is absent. |
| ImportProperties.HeaderOnlyDocumentClears | src/app/api/import/linkedin/route.ts:183-185 | A sent document with only a header line still empties its table, and its counter is 0. |
| ImportProperties.KeptFollowsRows | src/app/api/import/linkedin/route.ts:125-145 | Kept records carry their raw row index. They come in strictly increasing row order, each is what its row maps to, and every row the mapper keeps is among them. |
| ImportProperties.ExperienceRecordsFollowRows | src/app/api/import/linkedin/route.ts:125-145 | The experience records follow the positions rows by raw index, so a skipped row leaves a gap. |
| ImportProperties.EducationRecordsFollowRows | src/app/api/import/linkedin/route.ts:156-174 | The education records follow the education rows by raw index. |
| ImportProperties.SkillRecordsFollowRows | src/app/api/import/linkedin/route.ts:185-198 | The skills follow the skills rows by raw index. |

## Left out

- The HTTP layer is not modelled: `request.formData()`, `File.text()`, `NextResponse` and the JSON encoding of the reply. The four documents are inputs, and the reply is a `Response` value.
- A throw from `formData()` or from `File.text()` is not modelled. `failAt` only chooses among store calls. A read failure after the profile upsert would leave the store as a throwing store call at that point does.
- The `console.error` logging in the catch block is not modelled.
- Prisma internals are left out: record ids, timestamps, and the actual reasons a call throws (for example a required column given `undefined`). Any store call may throw; which one is the `failAt` parameter.
- Concurrent imports are not modelled. The handler awaits every call, so one import is a sequence.
- Dates.NewDate: does not model the time value of a `Date`. It leaves out the local time zone and the range limit of section 21.4.1.31 of ECMA-262 (TimeClip), under which a year beyond ±275760 also gives the invalid date.
- Dates.ParseInt: reads the digits as an exact integer. The rounding of very long numerals to a double is left out.
- Dates.MonthIndex: does not model lookups of `Object.prototype` members. `months["constructor"]` is a truthy function, which `new Date` turns into the invalid date. The model reads every unknown name as January.
- Tokenizer.BuildRow: does not model the header `__proto__`. In JavaScript, assigning a string to it on a plain object has no effect.
- A store call that commits part or all of its write and then throws is not modelled. `Apply` treats every call as all-or-nothing, so such a failure is not one of the `failAt` schedules.
- Mapping.ProfileName: states the name only for name cells that are already trimmed. A quoted cell with padding inside the quotes is covered only by `MapProfile`'s promise that the name is trimmed.
- Mapping.ProfileNameUndefined: states the name for one or both name columns missing only when the present cell is already trimmed, for the same reason as `Mapping.ProfileName`.
- Text.Trim: characters are Dafny `char`s (Unicode scalar values). UTF-16 surrogate code units are not modelled.
- The other routes, the UI, authentication and the seed script are not part of this model.

=== FILE: dates.dfy ===
/** `parseLinkedInDate` of the import route, with the two JavaScript built-ins
    it leans on: `parseInt` with no radix (section 19.2.5 of ECMA-262) and the
    `Date(year, month, day)` constructor (section 21.4.2.1 of ECMA-262), which
    reads the years 0 to 99 as 1900 to 1999. */
module Dates {
  import opened Wrappers
  import opened Text

  /** A JavaScript `Date`: the invalid date (time value NaN) or a local
      calendar date with a zero-based month. Both are truthy. */
  datatype JsDate = InvalidDate | LocalDate(year: int, monthIndex: nat, day: nat)

  /** Value of `c` as a digit in base 10 or 16. */
  function DigitValue(c: char, radix: nat): (d: Option<nat>)
    ensures d.Some? ==> d.value < radix || (radix < 10 && d.value < 10)
  {
    if '0' <= c <= '9' && (c as int - '0' as int) < radix then Some(c as int - '0' as int)
    else if radix == 16 && 'a' <= c <= 'f' then Some(c as int - 'a' as int + 10)
    else if radix == 16 && 'A' <= c <= 'F' then Some(c as int - 'A' as int + 10)
    else None
  }

  predicate AllDigits(s: string, radix: nat) {
    forall k :: 0 <= k < |s| ==> DigitValue(s[k], radix).Some?
  }

  /** Length of the run of digits that starts `s`. */
  function DigitRun(s: string, radix: nat): (n: nat)
    ensures n <= |s|
    ensures AllDigits(s[..n], radix)
    ensures n < |s| ==> DigitValue(s[n], radix).None?
  {
    if |s| > 0 && DigitValue(s[0], radix).Some? then
      var n := 1 + DigitRun(s[1..], radix);
      assert s[..n] == [s[0]] + s[1..][..n - 1];
      n
    else 0
  }

  /** The number a digit string denotes, most significant digit first. */
  function DigitsValue(ds: string, radix: nat): nat
    requires AllDigits(ds, radix)
  {
    if ds == [] then 0
    else
      assert AllDigits(ds[..|ds| - 1], radix);
      DigitsValue(ds[..|ds| - 1], radix) * radix + DigitValue(ds[|ds| - 1], radix).value
  }

  /** `parseInt(s)`: skip leading whitespace, take an optional sign and an
      optional `0x`/`0X` prefix (which switches to base 16), then read the
      longest run of digits; no digits at all gives NaN, here `None`. */
  function ParseInt(s: string): (r: Option<int>)
    ensures AllWhitespace(s) ==> r == None
  {
    ParseSigned(s[LeadingSpaces(s)..])
  }

  /** `parseInt` after the leading whitespace: an optional sign, then the
      unsigned reading. */
  function ParseSigned(t: string): Option<int> {
    var negative := |t| > 0 && t[0] == '-';
    var u := if |t| > 0 && (t[0] == '-' || t[0] == '+') then t[1..] else t;
    match ParseDigits(u)
    case None => None
    case Some(v) => Some(if negative then -(v as int) else v)
  }

  /** The unsigned part of `parseInt`, after the sign: an optional `0x`/`0X`
      prefix, then the longest run of digits in the base it selects. */
  function ParseDigits(u: string): Option<nat> {
    var hex := |u| >= 2 && u[0] == '0' && (u[1] == 'x' || u[1] == 'X');
    var radix := if hex then 16 else 10;
    var digits := if hex then u[2..] else u;
    var n := DigitRun(digits, radix);
    if n == 0 then None else Some(DigitsValue(digits[..n], radix))
  }

  /** A number is read only from text that holds a digit. */
  lemma ParseIntReadsDigit(s: string)
    requires ParseInt(s).Some?
    ensures exists k :: 0 <= k < |s| && DigitValue(s[k], 16).Some?
  {
    var a := LeadingSpaces(s);
    var t := s[a..];
    var u := if |t| > 0 && (t[0] == '-' || t[0] == '+') then t[1..] else t;
    assert ParseDigits(u).Some?;
    var hex := |u| >= 2 && u[0] == '0' && (u[1] == 'x' || u[1] == 'X');
    var radix := if hex then 16 else 10;
    var digits := if hex then u[2..] else u;
    var n := DigitRun(digits, radix);
    assert digits[..n][0] == digits[0];
    var at := a + (|t| - |u|) + (|u| - |digits|);
    assert s[at] == digits[0];
  }

  function DigitChar(d: nat): (c: char)
    requires d < 10
    ensures DigitValue(c, 10) == Some(d)
  {
    ('0' as int + d) as char
  }

  /** The decimal numeral of `n`, without leading zeros. */
  function ShowNat(n: nat): (s: string)
    ensures s != [] && AllDigits(s, 10)
    ensures s[0] == '0' <==> n == 0
    ensures n == 0 ==> s == "0"
  {
    if n < 10 then [DigitChar(n)]
    else
      var s := ShowNat(n / 10) + [DigitChar(n % 10)];
      assert s[..|s| - 1] == ShowNat(n / 10);
      s
  }

  lemma {:induction false} ShowNatValue(n: nat)
    ensures DigitsValue(ShowNat(n), 10) == n
  {
    if n >= 10 {
      ShowNatValue(n / 10);
      var s := ShowNat(n);
      assert s[..|s| - 1] == ShowNat(n / 10);
    }
  }

  /** Reading a numeral back: `parseInt` of the decimal numeral of `n`,
      followed by anything that does not continue the number, is `n`. The
      only exception is the numeral `0` followed by `x` or `X`, which starts
      a hexadecimal literal. */
  lemma ParseIntShowNat(n: nat, rest: string)
    requires rest == [] || DigitValue(rest[0], 10).None?
    requires n == 0 && rest != [] ==> rest[0] != 'x' && rest[0] != 'X'
    ensures ParseInt(ShowNat(n) + rest) == Some(n)
  {
    var s := ShowNat(n) + rest;
    var m := |ShowNat(n)|;
    assert s[0] == ShowNat(n)[0];
    assert DigitValue(s[0], 10).Some?;
    assert ParseInt(s) == ParseSigned(s) by {
      NotWhitespace(s[0], 10);
      ParseIntIsSigned(s);
    }
    assert ParseDigits(s) == Some(n) by {
      assert !(|s| >= 2 && s[0] == '0' && (s[1] == 'x' || s[1] == 'X')) by {
        if n == 0 && |s| >= 2 {
          assert s[1] == rest[0];
        }
      }
      DigitRunOfNumeral(ShowNat(n), rest, 10);
      assert s[..m] == ShowNat(n);
      ShowNatValue(n);
    }
    ParseSignedUnsigned(s);
  }

  /** A digit string followed by a non-digit: the run covers exactly the digits. */
  lemma DigitRunOfNumeral(ds: string, rest: string, radix: nat)
    requires AllDigits(ds, radix)
    requires rest == [] || DigitValue(rest[0], radix).None?
    ensures DigitRun(ds + rest, radix) == |ds|
  {
    var s := ds + rest;
    var r := DigitRun(s, radix);
    assert forall k :: 0 <= k < |ds| ==> s[k] == ds[k];
    assert |ds| < |s| ==> s[|ds|] == rest[0];
    assert forall k :: 0 <= k < r ==> DigitValue(s[k], radix).Some? by {
      assert forall k :: 0 <= k < r ==> s[..r][k] == s[k];
    }
  }

  /** The base `parseInt` reads after the prefix `prefix`. */
  function PrefixRadix(prefix: string): nat {
    if prefix == [] then 10 else 16
  }

  /** `parseInt` skips leading whitespace: what follows is read as if the
      whitespace were not there. */
  lemma {:induction false} ParseIntSkipsSpace(ws: string, t: string)
    requires AllWhitespace(ws)
    requires t != [] && !IsWhitespace(t[0])
    ensures ParseInt(ws + t) == ParseInt(t)
  {
    LeadingSpacesOf(ws, t);
    LeadingSpacesOf([], t);
    assert [] + t == t;
  }

  /** After the whitespace, an optional sign: `-` negates the unsigned
      reading of what follows, `+` or no sign keeps it, and NaN stays NaN. */
  lemma {:induction false} ParseIntSign(sign: string, u: string)
    requires sign == [] || sign == "-" || sign == "+"
    requires u != [] && u[0] != '-' && u[0] != '+' && !IsWhitespace(u[0])
    ensures ParseInt(sign + u) ==
              if ParseDigits(u).None? then None
              else if sign == "-" then Some(-(ParseDigits(u).value as int))
              else Some(ParseDigits(u).value)
  {
    assert (sign + u)[0] == if sign == [] then u[0] else sign[0];
    ParseIntIsSigned(sign + u);
    ParseSignedReads(sign, u);
  }

  /** Text that starts with no sign is read unsigned. */
  lemma ParseSignedUnsigned(u: string)
    requires u != [] && u[0] != '-' && u[0] != '+'
    ensures ParseDigits(u).None? ==> ParseSigned(u) == None
    ensures ParseDigits(u).Some? ==> ParseSigned(u) == Some(ParseDigits(u).value as int)
  {
  }

  /** Text that does not start with whitespace goes straight to the sign. */
  lemma ParseIntIsSigned(t: string)
    requires t != [] && !IsWhitespace(t[0])
    ensures ParseInt(t) == ParseSigned(t)
  {
    assert t[0..] == t;
  }

  /** An unsigned numeral: an optional `0x`/`0X` prefix and a run of digits
      in the base that prefix selects (leading zeros allowed), ended by
      anything that is not such a digit, reads as the digits' value. */
  lemma {:induction false} ParseIntUnsigned(prefix: string, ds: string, rest: string)
    requires prefix == [] || prefix == "0x" || prefix == "0X"
    requires ds != [] && AllDigits(ds, PrefixRadix(prefix))
    requires rest == [] || DigitValue(rest[0], PrefixRadix(prefix)).None?
    requires prefix == [] && ds == "0" && rest != [] ==> rest[0] != 'x' && rest[0] != 'X'
    ensures ParseInt(prefix + ds + rest) == Some(DigitsValue(ds, PrefixRadix(prefix)))
  {
    var u := prefix + ds + rest;
    NumeralStart([], prefix, ds, rest);
    assert [] + prefix + ds + rest == u && [] + u == u;
    ParseIntSign([], u);
    ParseDigitsReads(prefix, ds, rest);
  }

  /** The sign in front of the unsigned reading. */
  lemma {:induction false} ParseSignedReads(sign: string, u: string)
    requires sign == [] || sign == "-" || sign == "+"
    requires u != [] && u[0] != '-' && u[0] != '+'
    ensures ParseDigits(u).None? ==> ParseSigned(sign + u) == None
    ensures ParseDigits(u).Some? ==>
              ParseSigned(sign + u) == Some(if sign == "-" then -(ParseDigits(u).value as int) else ParseDigits(u).value)
  {
    if sign != [] {
      assert (sign + u)[1..] == u;
    } else {
      assert sign + u == u;
    }
  }

  /** A numeral starts with a sign or a digit: neither is whitespace, and
      after the sign comes no second sign. */
  lemma NumeralStart(sign: string, prefix: string, ds: string, rest: string)
    requires sign == [] || sign == "-" || sign == "+"
    requires prefix == [] || prefix == "0x" || prefix == "0X"
    requires ds != [] && AllDigits(ds, PrefixRadix(prefix))
    ensures (prefix + ds + rest)[0] != '-' && (prefix + ds + rest)[0] != '+'
    ensures !IsWhitespace((sign + prefix + ds + rest)[0])
  {
    var radix := PrefixRadix(prefix);
    assert ds[0] in ds;
    assert DigitValue(ds[0], radix).Some?;
    assert (prefix + ds + rest)[0] == (if prefix == [] then ds[0] else '0');
    if sign == [] && prefix == [] {
      assert (sign + prefix + ds + rest)[0] == ds[0];
      NotWhitespace(ds[0], radix);
    } else if sign == [] {
      assert (sign + prefix + ds + rest)[0] == '0';
    } else {
      assert (sign + prefix + ds + rest)[0] == sign[0];
    }
  }

  /** The unsigned reading of a prefix and a digit run. */
  lemma {:induction false} ParseDigitsReads(prefix: string, ds: string, rest: string)
    requires prefix == [] || prefix == "0x" || prefix == "0X"
    requires ds != [] && AllDigits(ds, PrefixRadix(prefix))
    requires rest == [] || DigitValue(rest[0], PrefixRadix(prefix)).None?
    requires prefix == [] && ds == "0" && rest != [] ==> rest[0] != 'x' && rest[0] != 'X'
    ensures ParseDigits(prefix + ds + rest) == Some(DigitsValue(ds, PrefixRadix(prefix)))
  {
    var radix := PrefixRadix(prefix);
    var u := prefix + ds + rest;
    assert ds[0] in ds;
    if prefix == [] {
      assert u == ds + rest;
      assert !(|u| >= 2 && u[0] == '0' && (u[1] == 'x' || u[1] == 'X')) by {
        if |u| >= 2 && u[0] == '0' {
          if |ds| >= 2 {
            assert u[1] == ds[1];
            assert DigitValue(ds[1], 10).Some?;
          } else {
            assert ds == [ds[0]] && u[1] == rest[0];
          }
        }
      }
    } else {
      assert u[0] == '0' && u[1] == prefix[1];
      assert u[2..] == ds + rest;
    }
    DigitRunOfNumeral(ds, rest, radix);
    assert (ds + rest)[..|ds|] == ds;
  }

  /** Digits and signs are not whitespace. */
  lemma NotWhitespace(c: char, radix: nat)
    requires DigitValue(c, radix).Some?
    ensures !IsWhitespace(c)
  {
  }

  /** Whitespace run `ws` in front of text that starts with none. */
  lemma {:induction false} LeadingSpacesOf(ws: string, t: string)
    requires AllWhitespace(ws)
    requires t != [] && !IsWhitespace(t[0])
    ensures ParseInt(ws + t) == ParseSigned(t)
  {
    var s := ws + t;
    var n := LeadingSpaces(s);
    assert s[|ws|] == t[0];
    assert forall k :: 0 <= k < |ws| ==> s[k] == ws[k];
    assert n == |ws|;
    assert s[n..] == t;
  }

  /** Text that starts with neither a digit, a sign nor whitespace parses to NaN. */
  lemma ParseIntNoDigits(s: string)
    requires s == [] || (DigitValue(s[0], 10).None? && s[0] != '-' && s[0] != '+' && !IsWhitespace(s[0]))
    ensures ParseInt(s) == None
  {
  }

  /** `new Date(year, monthIndex, 1)`: NaN gives the invalid date; a year from
      0 to 99 is read as 1900 plus that year. */
  function NewDate(year: Option<int>, monthIndex: nat): (d: JsDate)
    ensures year.None? ==> d == InvalidDate
    ensures year.Some? && 0 <= year.value <= 99 ==> d == LocalDate(1900 + year.value, monthIndex, 1)
    ensures year.Some? && !(0 <= year.value <= 99) ==> d == LocalDate(year.value, monthIndex, 1)
  {
    match year
    case None => InvalidDate
    case Some(y) => LocalDate(FullYear(y), monthIndex, 1)
  }

  /** The calendar year `new Date` uses for the numeric year `y`. */
  function FullYear(y: int): int {
    if 0 <= y <= 99 then 1900 + y else y
  }

  /** Two years give the same date exactly when they are equal or one is
      the two-digit form of the other: `new Date` cannot tell 1950 from 50. */
  lemma NewDateSameYear(a: int, b: int, monthIndex: nat)
    ensures NewDate(Some(a), monthIndex) == NewDate(Some(b), monthIndex) <==>
              a == b || (0 <= a <= 99 && b == 1900 + a) || (0 <= b <= 99 && a == 1900 + b)
  {
  }

  /** The English month abbreviations, January first. */
  const MonthNames: seq<string> :=
    ["Jan", "Feb", "Mar", "Apr", "May", "Jun", "Jul", "Aug", "Sep", "Oct", "Nov", "Dec"]

  /** The route's `months` table. */
  const Months: map<string, nat> :=
    map["Jan" := 0, "Feb" := 1, "Mar" := 2, "Apr" := 3, "May" := 4, "Jun" := 5,
        "Jul" := 6, "Aug" := 7, "Sep" := 8, "Oct" := 9, "Nov" := 10, "Dec" := 11]

  /** `months[name] || 0`: an unknown name falls back to January. */
  function MonthIndex(name: string): (m: nat)
    ensures m < 12
    ensures name !in MonthNames ==> m == 0
  {
    if name in Months then Months[name] else 0
  }

  /** The table maps the `k`-th abbreviation to month index `k`. */
  lemma MonthTable(k: nat)
    requires k < 12
    ensures MonthIndex(MonthNames[k]) == k
  {
  }

  /** `parseLinkedInDate(s)`, with `null` as `None`: the empty string gives
      `null`; otherwise `s` is split on single spaces and exactly two parts
      read as "<month> <year>", exactly one part as "<year>", anything else
      (two or more spaces) as `null`. */
  function ParseLinkedInDate(s: string): (r: Option<JsDate>)
    ensures r.None? <==> s == [] || Count(s, ' ') >= 2
  {
    SplitCount(s, ' ');
    if s == [] then None
    else
      var parts := Split(s, ' ');
      if |parts| == 2 then Some(NewDate(ParseInt(parts[1]), MonthIndex(parts[0])))
      else if |parts| == 1 then Some(NewDate(ParseInt(parts[0]), 0))
      else None
  }

  /** "<month> <year>": the first of that month, January when the name is
      unknown, and the invalid date when the year has no digits. */
  lemma MonthYearDate(month: string, year: string)
    requires ' ' !in month && ' ' !in year
    ensures ParseLinkedInDate(month + [' '] + year) == Some(NewDate(ParseInt(year), MonthIndex(month)))
  {
    assert Join([month, year], ' ') == month + [' '] + year;
    SplitJoin([month, year], ' ');
  }

  /** "<year>": the first of January of that year, or the invalid date. */
  lemma YearOnlyDate(year: string)
    requires year != [] && ' ' !in year
    ensures ParseLinkedInDate(year) == Some(NewDate(ParseInt(year), 0))
  {
    SplitFree(year, ' ');
  }

  /** A well-formed "Mon YYYY" token is the first day of that month and year. */
  lemma ExportMonthYear(k: nat, y: nat)
    requires k < 12
    ensures ParseLinkedInDate(MonthNames[k] + [' '] + ShowNat(y)) == Some(LocalDate(FullYear(y), k, 1))
  {
    assert ' ' !in MonthNames[k];
    assert ' ' !in ShowNat(y) by {
      assert forall i :: 0 <= i < |ShowNat(y)| ==> DigitValue(ShowNat(y)[i], 10).Some?;
    }
    MonthYearDate(MonthNames[k], ShowNat(y));
    ParseIntShowNat(y, []);
    assert ShowNat(y) + [] == ShowNat(y);
    MonthTable(k);
  }

  /** A bare year numeral is the first of January of that year. */
  lemma ExportYear(y: nat)
    ensures ParseLinkedInDate(ShowNat(y)) == Some(LocalDate(FullYear(y), 0, 1))
  {
    assert ' ' !in ShowNat(y) by {
      assert forall i :: 0 <= i < |ShowNat(y)| ==> DigitValue(ShowNat(y)[i], 10).Some?;
    }
    YearOnlyDate(ShowNat(y));
    ParseIntShowNat(y, []);
    assert ShowNat(y) + [] == ShowNat(y);
  }

  /** A one- or two-part token whose year has no digits is not `null` but the
      (truthy) invalid date. */
  lemma NonNumericYearIsInvalidDate(s: string)
    requires s != [] && Count(s, ' ') <= 1
    requires ParseInt(Split(s, ' ')[|Split(s, ' ')| - 1]) == None
    ensures ParseLinkedInDate(s) == Some(InvalidDate)
  {
    SplitCount(s, ' ');
  }
}

=== FILE: import.dfy ===
/** The `POST` handler of the LinkedIn import route. The uploaded form
    becomes four optional documents, Prisma becomes the `Store` state, and a
    thrown store error is chosen by `failAt`: the number (counting from 0) of
    the store call that throws, if any. The calls the handler issues never
    depend on what the store returns, so every failure schedule is one value
    of `failAt`.

    `Post` follows the handler statement by statement. `Run` is the reference
    it is proved against: the handler as the list of store calls it issues
    (`Plan`), executed in order until one of them throws (`Exec`). */
module LinkedInImport {
  import opened Wrappers
  import opened Tokenizer
  import opened Mapping
  import opened Store

  /** The documents of the form fields `profile`, `positions`, `education`
      and `skills`; `None` when the field was not sent. */
  datatype Upload = Upload(
    profile: Option<string>,
    positions: Option<string>,
    education: Option<string>,
    skills: Option<string>)

  /** The `results` object: one counter per category. */
  datatype Counts = Counts(profile: nat, experience: nat, education: nat, skills: nat)

  const NoCounts: Counts := Counts(0, 0, 0, 0)

  /** `{ success: true, imported: results }`, or the status-500 reply
      `{ error: "Failed to import data" }`. */
  datatype Response = Imported(counts: Counts) | ImportFailed

  /** The records `mapper` makes of `rows[i..]`, in row order, skipping the
      rows it rejects; `mapper` gets each row with its index. */
  function Kept<T>(rows: seq<Row>, i: nat, mapper: (Row, nat) -> Option<T>): seq<T>
    requires i <= |rows|
    decreases |rows| - i
  {
    if i == |rows| then []
    else
      match mapper(rows[i], i)
      case Some(r) => [r] + Kept(rows, i + 1, mapper)
      case None => Kept(rows, i + 1, mapper)
  }

  /** One create call per record, in order. */
  function Creates<T>(records: seq<T>, make: T -> Call): (calls: seq<Call>)
    ensures |calls| == |records|
  {
    if records == [] then [] else [make(records[0])] + Creates(records[1..], make)
  }

  function ExperienceCall(e: Experience): Call { CreateExperience(e) }
  function EducationCall(e: Education): Call { CreateEducation(e) }
  function SkillCall(k: Skill): Call { CreateSkill(k) }

  function ExperienceRecords(doc: string): seq<Experience> {
    Kept(ParseCsv(doc), 0, MapExperience)
  }

  function EducationRecords(doc: string): seq<Education> {
    Kept(ParseCsv(doc), 0, MapEducation)
  }

  function SkillRecords(doc: string): seq<Skill> {
    Kept(ParseCsv(doc), 0, MapSkill)
  }

  /** Profile step: one upsert from the first row, if there is a row. */
  function ProfileSteps(rows: seq<Row>): seq<Call> {
    if |rows| > 0 then [UpsertProfile(MapProfile(rows[0]))] else []
  }

  /** A record step: clear the table, then create one record per kept row. */
  function RecordSteps<T>(rows: seq<Row>, mapper: (Row, nat) -> Option<T>, clear: Call, make: T -> Call): seq<Call> {
    [clear] + Creates(Kept(rows, 0, mapper), make)
  }

  /** Positions step: delete all experience, then create the kept rows. */
  function ExperienceSteps(rows: seq<Row>): seq<Call> {
    RecordSteps(rows, MapExperience, DeleteAllExperience, ExperienceCall)
  }

  /** Education step: delete all education, then create the kept rows. */
  function EducationSteps(rows: seq<Row>): seq<Call> {
    RecordSteps(rows, MapEducation, DeleteAllEducation, EducationCall)
  }

  /** Skills step: delete all skills, then create the kept rows. */
  function SkillSteps(rows: seq<Row>): seq<Call> {
    RecordSteps(rows, MapSkill, DeleteAllSkills, SkillCall)
  }

  /** The steps of one document: nothing when its field is absent. */
  function Steps(doc: Option<string>, steps: seq<Row> -> seq<Call>): seq<Call> {
    if doc.Some? then steps(ParseCsv(doc.value)) else []
  }

  /** Every store call of one import, in the order the handler issues them:
      profile, positions, education, skills. */
  function Plan(u: Upload): seq<Call> {
    Steps(u.profile, ProfileSteps) + (Steps(u.positions, ExperienceSteps) + (Steps(u.education, EducationSteps) + Steps(u.skills, SkillSteps)))
  }

  /** Regrouping the next call out of a concatenation. */
  lemma Regroup(call: Call, xs: seq<Call>, ys: seq<Call>)
    ensures ([call] + xs) + ys == [call] + (xs + ys)
  {
  }

  /** The counter a successful call bumps. */
  function Tally(c: Counts, call: Call): Counts {
    match call
    case UpsertProfile(_) => c.(profile := 1)
    case CreateExperience(_) => c.(experience := c.experience + 1)
    case CreateEducation(_) => c.(education := c.education + 1)
    case CreateSkill(_) => c.(skills := c.skills + 1)
    case _ => c
  }

  /** Issues `calls` in order, numbering them from `n`; the call numbered
      `failAt` throws, which ends the import with nothing rolled back. */
  function Exec(s: Store, c: Counts, calls: seq<Call>, n: nat, failAt: Option<nat>): (Response, Store)
    decreases |calls|
  {
    if calls == [] then (Imported(c), s)
    else if failAt == Some(n) then (ImportFailed, s)
    else Exec(Apply(s, calls[0]), Tally(c, calls[0]), calls[1..], n + 1, failAt)
  }

  /** The reply and final store of one import. */
  function Run(u: Upload, s: Store, failAt: Option<nat>): (Response, Store) {
    Exec(s, NoCounts, Plan(u), 0, failAt)
  }

  /** The create calls of `rows[i..]`: the call for row `i`, if it is kept,
      then those of the rows after it. */
  lemma CreatesStep<T>(rows: seq<Row>, i: nat, mapper: (Row, nat) -> Option<T>, make: T -> Call)
    requires i < |rows|
    ensures Creates(Kept(rows, i, mapper), make) ==
              match mapper(rows[i], i)
              case Some(r) => [make(r)] + Creates(Kept(rows, i + 1, mapper), make)
              case None => Creates(Kept(rows, i + 1, mapper), make)
  {
    if mapper(rows[i], i).Some? {
      var records := Kept(rows, i, mapper);
      assert records[1..] == Kept(rows, i + 1, mapper);
    }
  }

  /** One more step of a run: issuing the next call of the remaining list. */
  lemma ExecStep(s: Store, c: Counts, call: Call, rest: seq<Call>, n: nat, failAt: Option<nat>)
    ensures Exec(s, c, [call] + rest, n, failAt) ==
              if failAt == Some(n) then (ImportFailed, s)
              else Exec(Apply(s, call), Tally(c, call), rest, n + 1, failAt)
  {
    assert ([call] + rest)[0] == call && ([call] + rest)[1..] == rest;
  }

  /** The first call of a records step, the delete-all: it either throws
      or takes effect, and the row creates follow it. */
  lemma ExecClearStep<T>(rows: seq<Row>, mapper: (Row, nat) -> Option<T>, clear: Call, make: T -> Call,
                         s: Store, c: Counts, n: nat, failAt: Option<nat>, after: seq<Call>)
    ensures failAt == Some(n) ==>
              Exec(s, c, RecordSteps(rows, mapper, clear, make) + after, n, failAt) == (ImportFailed, s)
    ensures failAt != Some(n) ==>
              Exec(s, c, RecordSteps(rows, mapper, clear, make) + after, n, failAt) ==
              Exec(Apply(s, clear), Tally(c, clear), Creates(Kept(rows, 0, mapper), make) + after, n + 1, failAt)
  {
    Regroup(clear, Creates(Kept(rows, 0, mapper), make), after);
    ExecStep(s, c, clear, Creates(Kept(rows, 0, mapper), make) + after, n, failAt);
  }

  /** Handling row `i` of a records step: a row the mapper drops issues
      nothing; a kept row issues its create call, which either throws or
      takes effect and is counted. */
  lemma ExecRowStep<T>(rows: seq<Row>, i: nat, mapper: (Row, nat) -> Option<T>, make: T -> Call,
                       s: Store, c: Counts, n: nat, failAt: Option<nat>, after: seq<Call>)
    requires i < |rows|
    ensures mapper(rows[i], i).None? ==>
              Creates(Kept(rows, i, mapper), make) + after == Creates(Kept(rows, i + 1, mapper), make) + after
    ensures mapper(rows[i], i).Some? && failAt == Some(n) ==>
              Exec(s, c, Creates(Kept(rows, i, mapper), make) + after, n, failAt) == (ImportFailed, s)
    ensures mapper(rows[i], i).Some? && failAt != Some(n) ==>
              var call := make(mapper(rows[i], i).value);
              Exec(s, c, Creates(Kept(rows, i, mapper), make) + after, n, failAt) ==
              Exec(Apply(s, call), Tally(c, call), Creates(Kept(rows, i + 1, mapper), make) + after, n + 1, failAt)
  {
    CreatesStep(rows, i, mapper, make);
    if mapper(rows[i], i).Some? {
      var call := make(mapper(rows[i], i).value);
      var rest := Creates(Kept(rows, i + 1, mapper), make);
      Regroup(call, rest, after);
      ExecStep(s, c, call, rest + after, n, failAt);
    }
  }

  /** The profile step of the handler on the parsed rows: upsert the
      "default" profile from the first row, if there is one. `ok` is false
      when the upsert threw; `after` is what the handler does next. */
  method ImportProfile(rows: seq<Row>, s: Store, c: Counts, n: nat, failAt: Option<nat>, ghost after: seq<Call>)
    returns (ok: bool, s': Store, c': Counts, n': nat)
    ensures ok ==> Exec(s', c', after, n', failAt) == Exec(s, c, ProfileSteps(rows) + after, n, failAt)
    ensures !ok ==> (ImportFailed, s') == Exec(s, c, ProfileSteps(rows) + after, n, failAt)
  {
    ok, s', c', n' := true, s, c, n;
    if |rows| > 0 {
      var fields := MapProfile(rows[0]);
      ExecStep(s, c, UpsertProfile(fields), after, n, failAt);
      if failAt == Some(n) {
        return false, s, c, n;
      }
      s' := Apply(s, UpsertProfile(fields));
      c' := c.(profile := 1);
      n' := n + 1;
    } else {
      assert ProfileSteps(rows) + after == after;
    }
  }

  /** The positions, education and skills steps of the handler, which
      share one shape: `clear` deletes every record of the table, then each
      row that `mapper` keeps (the row index is passed along as `order`)
      becomes one `make` call and bumps that table's counter. `ok` is false
      when a store call threw. */
  method ImportRecords<T>(rows: seq<Row>, mapper: (Row, nat) -> Option<T>, clear: Call, make: T -> Call,
                          s: Store, c: Counts, n: nat, failAt: Option<nat>, ghost after: seq<Call>)
    returns (ok: bool, s': Store, c': Counts, n': nat)
    ensures ok ==> Exec(s', c', after, n', failAt) == Exec(s, c, RecordSteps(rows, mapper, clear, make) + after, n, failAt)
    ensures !ok ==> (ImportFailed, s') == Exec(s, c, RecordSteps(rows, mapper, clear, make) + after, n, failAt)
  {
    ghost var goal := Exec(s, c, RecordSteps(rows, mapper, clear, make) + after, n, failAt);
    ExecClearStep(rows, mapper, clear, make, s, c, n, failAt, after);
    if failAt == Some(n) {
      return false, s, c, n;
    }
    ok, s', c', n' := true, Apply(s, clear), Tally(c, clear), n + 1;
    var i := 0;
    while ok && i < |rows|
      invariant i <= |rows|
      invariant ok ==> Exec(s', c', Creates(Kept(rows, i, mapper), make) + after, n', failAt) == goal
      invariant !ok ==> (ImportFailed, s') == goal
    {
      var record := mapper(rows[i], i);
      ExecRowStep(rows, i, mapper, make, s', c', n', failAt, after);
      if record.Some? {
        if failAt == Some(n') {
          ok := false;
        } else {
          var call := make(record.value);
          s', c', n' := Apply(s', call), Tally(c', call), n' + 1;
        }
      }
      i := i + 1;
    }
    if ok {
      assert Creates(Kept(rows, i, mapper), make) == [];
      assert [] + after == after;
    }
  }

  /** The handler: parse each document that was sent and run its step, in
      the order profile, positions, education, skills, stopping at the first
      store call that throws. Nothing already written is rolled back. */
  method Post(u: Upload, s0: Store, failAt: Option<nat>) returns (response: Response, store: Store)
    ensures (response, store) == Run(u, s0, failAt)
  {
    var results := NoCounts;
    var n: nat := 0;  // store calls issued so far
    var ok := true;
    store := s0;
    ghost var afterEducation := Steps(u.skills, SkillSteps);
    ghost var afterPositions := Steps(u.education, EducationSteps) + afterEducation;
    ghost var afterProfile := Steps(u.positions, ExperienceSteps) + afterPositions;
    assert Plan(u) == Steps(u.profile, ProfileSteps) + afterProfile;

    if u.profile.Some? {
      ok, store, results, n := ImportProfile(ParseCsv(u.profile.value), store, results, n, failAt, afterProfile);
      if !ok {
        return ImportFailed, store;
      }
    } else {
      assert Steps(u.profile, ProfileSteps) + afterProfile == afterProfile;
    }
    assert Exec(store, results, afterProfile, n, failAt) == Run(u, s0, failAt);

    if u.positions.Some? {
      ok, store, results, n := ImportRecords(ParseCsv(u.positions.value), MapExperience, DeleteAllExperience, ExperienceCall, store, results, n, failAt, afterPositions);
      if !ok {
        return ImportFailed, store;
      }
    } else {
      assert Steps(u.positions, ExperienceSteps) + afterPositions == afterPositions;
    }
    assert Exec(store, results, afterPositions, n, failAt) == Run(u, s0, failAt);

    if u.education.Some? {
      ok, store, results, n := ImportRecords(ParseCsv(u.education.value), MapEducation, DeleteAllEducation, EducationCall, store, results, n, failAt, afterEducation);
      if !ok {
        return ImportFailed, store;
      }
    } else {
      assert Steps(u.education, EducationSteps) + afterEducation == afterEducation;
    }
    assert Exec(store, results, afterEducation, n, failAt) == Run(u, s0, failAt);

    if u.skills.Some? {
      assert afterEducation == SkillSteps(ParseCsv(u.skills.value)) + [];
      ok, store, results, n := ImportRecords(ParseCsv(u.skills.value), MapSkill, DeleteAllSkills, SkillCall, store, results, n, failAt, []);
      if !ok {
        return ImportFailed, store;
      }
    }
    response := Imported(results);
  }
}

=== FILE: mapping.dfy ===
/** The per-row mapping inside the import route's `POST` handler: how one
    parsed row becomes the data of a profile upsert or of an experience,
    education or skill record, including JavaScript's coercions of a missing
    column (`undefined`) and of the empty string. */
module Mapping {
  import opened Wrappers
  import opened Text
  import opened Tokenizer
  import opened Dates

  /** `row[key]`; `None` is `undefined`, for a header the document lacks. */
  function Get(row: Row, key: string): Option<string> {
    if key in row then Some(row[key]) else None
  }

  /** JavaScript truthiness of a string that may be `undefined`. */
  predicate Truthy(v: Option<string>) {
    v.Some? && v.value != []
  }

  /** `v || null`, with `null` as `None`. */
  function OrNull(v: Option<string>): (r: Option<string>)
    ensures r.Some? <==> Truthy(v)
    ensures r.Some? ==> r == v
  {
    if Truthy(v) then v else None
  }

  /** `v || fallback`. */
  function Or(v: Option<string>, fallback: string): (r: string)
    ensures Truthy(v) ==> r == v.value
    ensures !Truthy(v) ==> r == fallback
  {
    if Truthy(v) then v.value else fallback
  }

  /** Template-literal interpolation `${v}`: `undefined` prints as "undefined". */
  function Interpolate(v: Option<string>): string {
    v.GetOr("undefined")
  }

  /** The fields the profile upsert writes (`null` as `None`). */
  datatype ProfileFields = ProfileFields(
    name: string,
    headline: Option<string>,
    summary: Option<string>,
    email: Option<string>)

  /** Experience record data. `company` and `title` are copied as read, so
      `None` there is `undefined`; in the other optional fields it is `null`. */
  datatype Experience = Experience(
    company: Option<string>,
    title: Option<string>,
    description: Option<string>,
    location: Option<string>,
    startDate: JsDate,
    endDate: Option<JsDate>,
    current: bool,
    order: nat)

  /** Education record data; `None` in `school` is `undefined`, in the other
      optional fields `null`. */
  datatype Education = Education(
    school: Option<string>,
    degree: string,
    description: Option<string>,
    startDate: JsDate,
    endDate: Option<JsDate>,
    order: nat)

  datatype Skill = Skill(name: string, category: string, level: int, order: nat)

  /** `parseLinkedInDate(row[key] || "")`. The handler passes the start column
      without `|| ""`; `undefined` and `""` both fail the `!dateStr` test, so
      the two calls agree. */
  function DateColumn(row: Row, key: string): (r: Option<JsDate>)
    ensures r.Some? <==> Truthy(Get(row, key)) && Count(row[key], ' ') <= 1
  {
    ParseLinkedInDate(Or(Get(row, key), []))
  }

  /** The profile upsert's data, read from the document's first row. */
  function MapProfile(row: Row): (p: ProfileFields)
    ensures IsTrimmed(p.name)
    ensures p.headline.Some? <==> Truthy(Get(row, "Headline"))
    ensures p.summary.Some? <==> Truthy(Get(row, "Summary"))
    ensures p.email.Some? <==> Truthy(Get(row, "Email Address"))
    ensures p.headline.Some? ==> p.headline.value == row["Headline"]
    ensures p.summary.Some? ==> p.summary.value == row["Summary"]
    ensures p.email.Some? ==> p.email.value == row["Email Address"]
  {
    ProfileFields(
      Trim(Interpolate(Get(row, "First Name")) + " " + Interpolate(Get(row, "Last Name"))),
      OrNull(Get(row, "Headline")),
      OrNull(Get(row, "Summary")),
      OrNull(Get(row, "Email Address")))
  }

  /** With both name cells present and already trimmed, the profile name is
      first name, one space, last name; an empty cell on either side leaves
      the other name alone. */
  lemma ProfileName(row: Row)
    requires "First Name" in row && "Last Name" in row
    requires IsTrimmed(row["First Name"]) && IsTrimmed(row["Last Name"])
    ensures MapProfile(row).name ==
              if row["First Name"] == [] then row["Last Name"]
              else if row["Last Name"] == [] then row["First Name"]
              else row["First Name"] + " " + row["Last Name"]
  {
    var first, last := row["First Name"], row["Last Name"];
    assert MapProfile(row).name == Trim(first + " " + last);
    TrimJoined(first, last);
  }

  /** A missing name column prints as "undefined" in the template literal:
      with one name column missing, the other (already trimmed) name is
      joined to that word; with both missing, the word appears twice. */
  lemma ProfileNameUndefined(row: Row)
    requires "First Name" !in row || "Last Name" !in row
    requires "First Name" in row ==> IsTrimmed(row["First Name"])
    requires "Last Name" in row ==> IsTrimmed(row["Last Name"])
    ensures "First Name" !in row && "Last Name" !in row ==> MapProfile(row).name == "undefined undefined"
    ensures "First Name" in row ==>
              MapProfile(row).name == if row["First Name"] == [] then "undefined" else row["First Name"] + " undefined"
    ensures "Last Name" in row ==>
              MapProfile(row).name == if row["Last Name"] == [] then "undefined" else "undefined " + row["Last Name"]
  {
    UndefinedIsTrimmed();
    var first, last := Interpolate(Get(row, "First Name")), Interpolate(Get(row, "Last Name"));
    assert MapProfile(row).name == Trim(first + " " + last);
    TrimJoined(first, last);
    if "First Name" !in row && "Last Name" !in row {
      assert first + " " + last == "undefined undefined";
    }
  }

  lemma UndefinedIsTrimmed()
    ensures IsTrimmed("undefined")
  {
    var u := "undefined";
    assert u[0] == 'u' && u[|u| - 1] == 'd';
    assert !IsWhitespace('u') && !IsWhitespace('d');
  }

  /** A positions row becomes an experience record exactly when its start
      date parses to a (possibly invalid) date; `order` is the raw row index
      and `current` holds exactly when there is no end date. */
  function MapExperience(row: Row, i: nat): (r: Option<Experience>)
    ensures r.Some? <==> DateColumn(row, "Started On").Some?
    ensures r.Some? ==> r.value.order == i
    ensures r.Some? ==> (r.value.current <==> r.value.endDate.None?)
    ensures r.Some? ==> (r.value.current <==> !Truthy(Get(row, "Finished On")) || Count(row["Finished On"], ' ') >= 2)
    ensures r.Some? ==> r.value.startDate == DateColumn(row, "Started On").value
    ensures r.Some? ==> r.value.endDate == DateColumn(row, "Finished On")
    ensures r.Some? ==> r.value.company == Get(row, "Company Name") && r.value.title == Get(row, "Title")
    ensures r.Some? ==> r.value.description == OrNull(Get(row, "Description"))
    ensures r.Some? ==> r.value.location == OrNull(Get(row, "Location"))
  {
    var startDate := DateColumn(row, "Started On");
    var endDate := DateColumn(row, "Finished On");
    if startDate.Some? then
      Some(Experience(
        Get(row, "Company Name"),
        Get(row, "Title"),
        OrNull(Get(row, "Description")),
        OrNull(Get(row, "Location")),
        startDate.value,
        endDate,
        endDate.None?,
        i))
    else None
  }

  /** An education row becomes a record exactly when its start date parses;
      the degree is never empty, falling back to "Degree". */
  function MapEducation(row: Row, i: nat): (r: Option<Education>)
    ensures r.Some? <==> DateColumn(row, "Start Date").Some?
    ensures r.Some? ==> r.value.order == i
    ensures r.Some? ==> r.value.degree != []
    ensures r.Some? ==> (r.value.degree == "Degree" <==> !Truthy(Get(row, "Degree Name")) || row["Degree Name"] == "Degree")
    ensures r.Some? && Truthy(Get(row, "Degree Name")) ==> r.value.degree == row["Degree Name"]
    ensures r.Some? ==> r.value.description == OrNull(Get(row, "Notes"))
    ensures r.Some? ==> r.value.school == Get(row, "School Name")
    ensures r.Some? ==> r.value.startDate == DateColumn(row, "Start Date").value
    ensures r.Some? ==> r.value.endDate == DateColumn(row, "End Date")
  {
    var startDate := DateColumn(row, "Start Date");
    var endDate := DateColumn(row, "End Date");
    if startDate.Some? then
      Some(Education(
        Get(row, "School Name"),
        Or(Get(row, "Degree Name"), "Degree"),
        OrNull(Get(row, "Notes")),
        startDate.value,
        endDate,
        i))
    else None
  }

  /** A skills row becomes a skill exactly when its name is non-empty; the
      category and level are always the fixed defaults. */
  function MapSkill(row: Row, i: nat): (r: Option<Skill>)
    ensures r.Some? <==> "Name" in row && row["Name"] != []
    ensures r.Some? ==> r.value == Skill(row["Name"], "General", 80, i)
  {
    var name := Get(row, "Name");
    if Truthy(name) then Some(Skill(name.value, "General", 80, i)) else None
  }

  /** An experience whose end column reads "Present" is not current: the
      word parses to the invalid date, which is not `null`. */
  lemma PresentIsNotCurrent(row: Row, i: nat)
    requires MapExperience(row, i).Some?
    requires Get(row, "Finished On") == Some("Present")
    ensures !MapExperience(row, i).value.current
  {
    assert Count("Present", ' ') == 0 by {
      CountAbsent("Present", ' ');
    }
  }
}

=== FILE: properties.dfy ===
/** What one import does to the store, stated independently of the order
    in which the handler issues its calls: the reference result `Effect`, the
    reported counters `Imports`, and how a store call that throws part-way
    leaves the tables. */
module ImportProperties {
  import opened Wrappers
  import opened Text
  import opened Tokenizer
  import opened Mapping
  import opened Store
  import opened LinkedInImport

  /** The counters after a run of successful calls. */
  function TallyAll(c: Counts, calls: seq<Call>): Counts
    decreases |calls|
  {
    if calls == [] then c else TallyAll(Tally(c, calls[0]), calls[1..])
  }

  /** With no call of `calls` scheduled to throw, the run succeeds: the
      counters tally every call and the store holds every call's effect. */
  lemma {:induction false} ExecWithoutFault(s: Store, c: Counts, calls: seq<Call>, n: nat, failAt: Option<nat>)
    requires failAt.None? || failAt.value < n || n + |calls| <= failAt.value
    ensures Exec(s, c, calls, n, failAt) == (Imported(TallyAll(c, calls)), ApplyAll(s, calls))
    decreases |calls|
  {
    if calls != [] {
      ExecWithoutFault(Apply(s, calls[0]), Tally(c, calls[0]), calls[1..], n + 1, failAt);
    }
  }

  /** When the call numbered `k` throws, the run fails and the store keeps
      the effects of exactly the calls before it: nothing is rolled back. */
  lemma {:induction false} ExecAtFault(s: Store, c: Counts, calls: seq<Call>, n: nat, k: nat)
    requires n <= k < n + |calls|
    ensures Exec(s, c, calls, n, Some(k)) == (ImportFailed, ApplyAll(s, calls[..k - n]))
    decreases |calls|
  {
    if k == n {
      assert calls[..0] == [];
    } else {
      ExecAtFault(Apply(s, calls[0]), Tally(c, calls[0]), calls[1..], n + 1, k);
      assert calls[..k - n][0] == calls[0] && calls[..k - n][1..] == calls[1..][..k - (n + 1)];
    }
  }

  /** Whatever the failure schedule, the final store is the effect of some
      prefix of the plan. */
  lemma RunIsPrefix(u: Upload, s: Store, failAt: Option<nat>) returns (j: nat)
    ensures j <= |Plan(u)|
    ensures Run(u, s, failAt).1 == ApplyAll(s, Plan(u)[..j])
  {
    if failAt.Some? && failAt.value < |Plan(u)| {
      j := failAt.value;
      ExecAtFault(s, NoCounts, Plan(u), 0, j);
    } else {
      j := |Plan(u)|;
      ExecWithoutFault(s, NoCounts, Plan(u), 0, failAt);
      assert Plan(u)[..j] == Plan(u);
    }
  }

  lemma {:induction false} ApplyCreatesExperience(s: Store, records: seq<Experience>)
    ensures ApplyAll(s, Creates(records, ExperienceCall)) == s.(experience := s.experience + records)
    decreases |records|
  {
    if records != [] {
      var rest := Creates(records[1..], ExperienceCall);
      var t := s.(experience := s.experience + [records[0]]);
      assert Creates(records, ExperienceCall) == [CreateExperience(records[0])] + rest;
      assert ApplyAll(s, [CreateExperience(records[0])] + rest) == ApplyAll(t, rest) by {
        assert ([CreateExperience(records[0])] + rest)[1..] == rest;
      }
      ApplyCreatesExperience(t, records[1..]);
      assert t.experience + records[1..] == s.experience + records;
    }
  }

  lemma {:induction false} ApplyCreatesEducation(s: Store, records: seq<Education>)
    ensures ApplyAll(s, Creates(records, EducationCall)) == s.(education := s.education + records)
    decreases |records|
  {
    if records != [] {
      var rest := Creates(records[1..], EducationCall);
      var t := s.(education := s.education + [records[0]]);
      assert Creates(records, EducationCall) == [CreateEducation(records[0])] + rest;
      assert ApplyAll(s, [CreateEducation(records[0])] + rest) == ApplyAll(t, rest) by {
        assert ([CreateEducation(records[0])] + rest)[1..] == rest;
      }
      ApplyCreatesEducation(t, records[1..]);
      assert t.education + records[1..] == s.education + records;
    }
  }

  lemma {:induction false} ApplyCreatesSkills(s: Store, records: seq<Skill>)
    ensures ApplyAll(s, Creates(records, SkillCall)) == s.(skills := s.skills + records)
    decreases |records|
  {
    if records != [] {
      var rest := Creates(records[1..], SkillCall);
      var t := s.(skills := s.skills + [records[0]]);
      assert Creates(records, SkillCall) == [CreateSkill(records[0])] + rest;
      assert ApplyAll(s, [CreateSkill(records[0])] + rest) == ApplyAll(t, rest) by {
        assert ([CreateSkill(records[0])] + rest)[1..] == rest;
      }
      ApplyCreatesSkills(t, records[1..]);
      assert t.skills + records[1..] == s.skills + records;
    }
  }

  lemma {:induction false} TallyAllAppend(c: Counts, a: seq<Call>, b: seq<Call>)
    ensures TallyAll(c, a + b) == TallyAll(TallyAll(c, a), b)
    decreases |a|
  {
    if a == [] {
      assert a + b == b;
    } else {
      assert (a + b)[0] == a[0] && (a + b)[1..] == a[1..] + b;
      TallyAllAppend(Tally(c, a[0]), a[1..], b);
    }
  }

  /** Clearing a table is not counted. */
  lemma TallySkipsClear(c: Counts, clear: Call, rest: seq<Call>)
    requires clear.DeleteAllExperience? || clear.DeleteAllEducation? || clear.DeleteAllSkills?
    ensures TallyAll(c, [clear] + rest) == TallyAll(c, rest)
  {
    assert ([clear] + rest)[1..] == rest;
  }

  lemma {:induction false} TallyCreatesExperience(c: Counts, records: seq<Experience>)
    ensures TallyAll(c, Creates(records, ExperienceCall)) == c.(experience := c.experience + |records|)
    decreases |records|
  {
    if records != [] {
      var calls := Creates(records, ExperienceCall);
      assert calls[1..] == Creates(records[1..], ExperienceCall);
      TallyCreatesExperience(Tally(c, calls[0]), records[1..]);
    }
  }

  lemma {:induction false} TallyCreatesEducation(c: Counts, records: seq<Education>)
    ensures TallyAll(c, Creates(records, EducationCall)) == c.(education := c.education + |records|)
    decreases |records|
  {
    if records != [] {
      var calls := Creates(records, EducationCall);
      assert calls[1..] == Creates(records[1..], EducationCall);
      TallyCreatesEducation(Tally(c, calls[0]), records[1..]);
    }
  }

  lemma {:induction false} TallyCreatesSkills(c: Counts, records: seq<Skill>)
    ensures TallyAll(c, Creates(records, SkillCall)) == c.(skills := c.skills + |records|)
    decreases |records|
  {
    if records != [] {
      var calls := Creates(records, SkillCall);
      assert calls[1..] == Creates(records[1..], SkillCall);
      TallyCreatesSkills(Tally(c, calls[0]), records[1..]);
    }
  }

  /** The profile step: one upsert, counted as 1, or nothing at all. */
  lemma ProfileStepsEffect(s: Store, c: Counts, rows: seq<Row>)
    ensures ApplyAll(s, ProfileSteps(rows)) ==
              if |rows| > 0 then s.(profiles := Upsert(s.profiles, MapProfile(rows[0]))) else s
    ensures TallyAll(c, ProfileSteps(rows)) == if |rows| > 0 then c.(profile := 1) else c
  {
    if |rows| > 0 {
      assert ProfileSteps(rows)[1..] == [];
    }
  }

  /** The positions step replaces the experience table by the kept rows. */
  lemma ExperienceStepsEffect(s: Store, c: Counts, rows: seq<Row>)
    ensures ApplyAll(s, ExperienceSteps(rows)) == s.(experience := Kept(rows, 0, MapExperience))
    ensures TallyAll(c, ExperienceSteps(rows)) == c.(experience := c.experience + |Kept(rows, 0, MapExperience)|)
  {
    ReplaceExperience(s, Kept(rows, 0, MapExperience));
    CountExperience(c, Kept(rows, 0, MapExperience));
  }

  lemma ReplaceExperience(s: Store, records: seq<Experience>)
    ensures ApplyAll(s, [DeleteAllExperience] + Creates(records, ExperienceCall)) == s.(experience := records)
  {
    var rest := Creates(records, ExperienceCall);
    assert ([DeleteAllExperience] + rest)[1..] == rest;
    ApplyCreatesExperience(s.(experience := []), records);
    assert [] + records == records;
  }

  lemma CountExperience(c: Counts, records: seq<Experience>)
    ensures TallyAll(c, [DeleteAllExperience] + Creates(records, ExperienceCall)) == c.(experience := c.experience + |records|)
  {
    TallySkipsClear(c, DeleteAllExperience, Creates(records, ExperienceCall));
    TallyCreatesExperience(c, records);
  }

  /** The education step replaces the education table by the kept rows. */
  lemma EducationStepsEffect(s: Store, c: Counts, rows: seq<Row>)
    ensures ApplyAll(s, EducationSteps(rows)) == s.(education := Kept(rows, 0, MapEducation))
    ensures TallyAll(c, EducationSteps(rows)) == c.(education := c.education + |Kept(rows, 0, MapEducation)|)
  {
    ReplaceEducation(s, Kept(rows, 0, MapEducation));
    CountEducation(c, Kept(rows, 0, MapEducation));
  }

  lemma ReplaceEducation(s: Store, records: seq<Education>)
    ensures ApplyAll(s, [DeleteAllEducation] + Creates(records, EducationCall)) == s.(education := records)
  {
    var rest := Creates(records, EducationCall);
    assert ([DeleteAllEducation] + rest)[1..] == rest;
    ApplyCreatesEducation(s.(education := []), records);
    assert [] + records == records;
  }

  lemma CountEducation(c: Counts, records: seq<Education>)
    ensures TallyAll(c, [DeleteAllEducation] + Creates(records, EducationCall)) == c.(education := c.education + |records|)
  {
    TallySkipsClear(c, DeleteAllEducation, Creates(records, EducationCall));
    TallyCreatesEducation(c, records);
  }

  /** The skills step replaces the skill table by the kept rows. */
  lemma SkillStepsEffect(s: Store, c: Counts, rows: seq<Row>)
    ensures ApplyAll(s, SkillSteps(rows)) == s.(skills := Kept(rows, 0, MapSkill))
    ensures TallyAll(c, SkillSteps(rows)) == c.(skills := c.skills + |Kept(rows, 0, MapSkill)|)
  {
    ReplaceSkills(s, Kept(rows, 0, MapSkill));
    CountSkills(c, Kept(rows, 0, MapSkill));
  }

  lemma ReplaceSkills(s: Store, records: seq<Skill>)
    ensures ApplyAll(s, [DeleteAllSkills] + Creates(records, SkillCall)) == s.(skills := records)
  {
    var rest := Creates(records, SkillCall);
    assert ([DeleteAllSkills] + rest)[1..] == rest;
    ApplyCreatesSkills(s.(skills := []), records);
    assert [] + records == records;
  }

  lemma CountSkills(c: Counts, records: seq<Skill>)
    ensures TallyAll(c, [DeleteAllSkills] + Creates(records, SkillCall)) == c.(skills := c.skills + |records|)
  {
    TallySkipsClear(c, DeleteAllSkills, Creates(records, SkillCall));
    TallyCreatesSkills(c, records);
  }

  /** The reference result of a successful import: the "default" profile
      holds the first profile row; each table whose document was sent holds
      exactly that document's kept rows, in row order; every table whose
      document was not sent is as it was. */
  function Effect(u: Upload, s: Store): Store {
    Store(
      if u.profile.Some? && |ParseCsv(u.profile.value)| > 0
      then Upsert(s.profiles, MapProfile(ParseCsv(u.profile.value)[0]))
      else s.profiles,
      if u.positions.Some? then ExperienceRecords(u.positions.value) else s.experience,
      if u.education.Some? then EducationRecords(u.education.value) else s.education,
      if u.skills.Some? then SkillRecords(u.skills.value) else s.skills)
  }

  /** The counters a successful import reports. */
  function Imports(u: Upload): Counts {
    Counts(
      if u.profile.Some? && |ParseCsv(u.profile.value)| > 0 then 1 else 0,
      if u.positions.Some? then |ExperienceRecords(u.positions.value)| else 0,
      if u.education.Some? then |EducationRecords(u.education.value)| else 0,
      if u.skills.Some? then |SkillRecords(u.skills.value)| else 0)
  }

  /** The profile document's steps, whether or not it was sent. */
  lemma ProfileDocument(u: Upload, s: Store, c: Counts)
    ensures ApplyAll(s, Steps(u.profile, ProfileSteps)) == s.(profiles := Effect(u, s).profiles)
    ensures TallyAll(c, Steps(u.profile, ProfileSteps)) == c.(profile := if Imports(u).profile == 1 then 1 else c.profile)
  {
    if u.profile.Some? {
      ProfileStepsEffect(s, c, ParseCsv(u.profile.value));
    }
  }

  /** The positions document's steps, whether or not it was sent. */
  lemma PositionsDocument(u: Upload, s: Store, c: Counts)
    ensures ApplyAll(s, Steps(u.positions, ExperienceSteps)) == s.(experience := Effect(u, s).experience)
    ensures TallyAll(c, Steps(u.positions, ExperienceSteps)) == c.(experience := c.experience + Imports(u).experience)
  {
    if u.positions.Some? {
      ExperienceStepsEffect(s, c, ParseCsv(u.positions.value));
    }
  }

  /** The education document's steps, whether or not it was sent. */
  lemma EducationDocument(u: Upload, s: Store, c: Counts)
    ensures ApplyAll(s, Steps(u.education, EducationSteps)) == s.(education := Effect(u, s).education)
    ensures TallyAll(c, Steps(u.education, EducationSteps)) == c.(education := c.education + Imports(u).education)
  {
    if u.education.Some? {
      EducationStepsEffect(s, c, ParseCsv(u.education.value));
    }
  }

  /** The skills document's steps, whether or not it was sent. */
  lemma SkillsDocument(u: Upload, s: Store, c: Counts)
    ensures ApplyAll(s, Steps(u.skills, SkillSteps)) == s.(skills := Effect(u, s).skills)
    ensures TallyAll(c, Steps(u.skills, SkillSteps)) == c.(skills := c.skills + Imports(u).skills)
  {
    if u.skills.Some? {
      SkillStepsEffect(s, c, ParseCsv(u.skills.value));
    }
  }

  /** Issuing the whole plan without a failure yields `Effect` and `Imports`. */
  lemma PlanEffect(u: Upload, s: Store)
    ensures ApplyAll(s, Plan(u)) == Effect(u, s)
    ensures TallyAll(NoCounts, Plan(u)) == Imports(u)
  {
    var a, b, c, d := Steps(u.profile, ProfileSteps), Steps(u.positions, ExperienceSteps),
                      Steps(u.education, EducationSteps), Steps(u.skills, SkillSteps);
    ApplyAllAppend(s, a, b + (c + d));
    TallyAllAppend(NoCounts, a, b + (c + d));
    var s1, c1 := ApplyAll(s, a), TallyAll(NoCounts, a);
    ProfileDocument(u, s, NoCounts);
    ApplyAllAppend(s1, b, c + d);
    TallyAllAppend(c1, b, c + d);
    var s2, c2 := ApplyAll(s1, b), TallyAll(c1, b);
    PositionsDocument(u, s1, c1);
    ApplyAllAppend(s2, c, d);
    TallyAllAppend(c2, c, d);
    var s3, c3 := ApplyAll(s2, c), TallyAll(c2, c);
    EducationDocument(u, s2, c2);
    SkillsDocument(u, s3, c3);
  }

  /** An import in which no store call throws reports `Imports(u)` and leaves
      the store at `Effect(u, s)`. */
  lemma RunWithoutFault(u: Upload, s: Store, failAt: Option<nat>)
    requires failAt.None? || |Plan(u)| <= failAt.value
    ensures Run(u, s, failAt) == (Imported(Imports(u)), Effect(u, s))
  {
    ExecWithoutFault(s, NoCounts, Plan(u), 0, failAt);
    PlanEffect(u, s);
  }

  /** Importing the same upload twice is the same as importing it once: the
      second run changes nothing and reports the same counters. */
  lemma ImportTwice(u: Upload, s: Store)
    ensures Run(u, Run(u, s, None).1, None) == Run(u, s, None)
  {
    RunWithoutFault(u, s, None);
    RunWithoutFault(u, Effect(u, s), None);
    if u.profile.Some? && |ParseCsv(u.profile.value)| > 0 {
      UpsertIdempotent(s.profiles, MapProfile(ParseCsv(u.profile.value)[0]));
    }
  }

  /** The document whose rows fill `table`. */
  function Document(u: Upload, table: Table): Option<string> {
    match table
    case ProfileTable => u.profile
    case ExperienceTable => u.positions
    case EducationTable => u.education
    case SkillTable => u.skills
  }

  /** The order in which the handler works through the tables. */
  function Rank(table: Table): nat {
    match table
    case ProfileTable => 0
    case ExperienceTable => 1
    case EducationTable => 2
    case SkillTable => 3
  }

  lemma {:induction false} CreatesTable<T>(records: seq<T>, make: T -> Call, table: Table)
    requires forall r :: TableOf(make(r)) == table
    ensures forall j :: 0 <= j < |Creates(records, make)| ==> TableOf(Creates(records, make)[j]) == table
    decreases |records|
  {
    if records != [] {
      CreatesTable(records[1..], make, table);
      var calls := Creates(records, make);
      assert forall j :: 1 <= j < |calls| ==> calls[j] == Creates(records[1..], make)[j - 1];
    }
  }

  /** Every call of `calls` writes `table`. */
  predicate WritesOnly(calls: seq<Call>, table: Table) {
    forall j :: 0 <= j < |calls| ==> TableOf(calls[j]) == table
  }

  lemma RecordStepsTable<T>(rows: seq<Row>, mapper: (Row, nat) -> Option<T>, clear: Call, make: T -> Call, table: Table)
    requires TableOf(clear) == table
    requires forall r :: TableOf(make(r)) == table
    ensures WritesOnly(RecordSteps(rows, mapper, clear, make), table)
  {
    CreatesTable(Kept(rows, 0, mapper), make, table);
  }

  /** Every call of a document's steps writes that document's table. */
  lemma ProfileStepsTable(rows: seq<Row>)
    ensures WritesOnly(ProfileSteps(rows), ProfileTable)
  {
  }

  lemma ExperienceStepsTable(rows: seq<Row>)
    ensures WritesOnly(ExperienceSteps(rows), ExperienceTable)
  {
    RecordStepsTable(rows, MapExperience, DeleteAllExperience, ExperienceCall, ExperienceTable);
  }

  lemma EducationStepsTable(rows: seq<Row>)
    ensures WritesOnly(EducationSteps(rows), EducationTable)
  {
    RecordStepsTable(rows, MapEducation, DeleteAllEducation, EducationCall, EducationTable);
  }

  lemma SkillStepsTable(rows: seq<Row>)
    ensures WritesOnly(SkillSteps(rows), SkillTable)
  {
    RecordStepsTable(rows, MapSkill, DeleteAllSkills, SkillCall, SkillTable);
  }

  lemma StepsTables(u: Upload)
    ensures WritesOnly(Steps(u.profile, ProfileSteps), ProfileTable)
    ensures WritesOnly(Steps(u.positions, ExperienceSteps), ExperienceTable)
    ensures WritesOnly(Steps(u.education, EducationSteps), EducationTable)
    ensures WritesOnly(Steps(u.skills, SkillSteps), SkillTable)
  {
    if u.profile.Some? {
      ProfileStepsTable(ParseCsv(u.profile.value));
    }
    if u.positions.Some? {
      ExperienceStepsTable(ParseCsv(u.positions.value));
    }
    if u.education.Some? {
      EducationStepsTable(ParseCsv(u.education.value));
    }
    if u.skills.Some? {
      SkillStepsTable(ParseCsv(u.skills.value));
    }
  }

  /** The rank of the table written at position `j` of the plan, read off the
      lengths of the four documents' steps. */
  function Stage(u: Upload, j: nat): nat {
    var a, b, c := |Steps(u.profile, ProfileSteps)|, |Steps(u.positions, ExperienceSteps)|,
                   |Steps(u.education, EducationSteps)|;
    if j < a then 0 else if j < a + b then 1 else if j < a + b + c then 2 else 3
  }

  lemma PlanStage(u: Upload, j: nat)
    requires j < |Plan(u)|
    ensures Rank(TableOf(Plan(u)[j])) == Stage(u, j)
    ensures Document(u, TableOf(Plan(u)[j])).Some?
  {
    var a, b, c, d := Steps(u.profile, ProfileSteps), Steps(u.positions, ExperienceSteps),
                      Steps(u.education, EducationSteps), Steps(u.skills, SkillSteps);
    assert Plan(u) == a + (b + (c + d));
    StepsTables(u);
    FourPartsTable(a, b, c, d, j);
  }

  /** In four runs of calls laid end to end, writing the four tables in
      order, position `j` writes the table of the run it falls in. */
  lemma FourPartsTable(a: seq<Call>, b: seq<Call>, c: seq<Call>, d: seq<Call>, j: nat)
    requires j < |a + (b + (c + d))|
    requires WritesOnly(a, ProfileTable) && WritesOnly(b, ExperienceTable)
    requires WritesOnly(c, EducationTable) && WritesOnly(d, SkillTable)
    ensures TableOf((a + (b + (c + d)))[j]) ==
              if j < |a| then ProfileTable
              else if j < |a| + |b| then ExperienceTable
              else if j < |a| + |b| + |c| then EducationTable
              else SkillTable
  {
    IndexFourParts(a, b, c, d, j);
  }

  /** Indexing into four sequences laid end to end. */
  lemma IndexFourParts<X>(a: seq<X>, b: seq<X>, c: seq<X>, d: seq<X>, j: nat)
    requires j < |a + (b + (c + d))|
    ensures (a + (b + (c + d)))[j] ==
              if j < |a| then a[j]
              else if j < |a| + |b| then b[j - |a|]
              else if j < |a| + |b| + |c| then c[j - |a| - |b|]
              else d[j - |a| - |b| - |c|]
  {
    if j >= |a| {
      assert (a + (b + (c + d)))[j] == (b + (c + d))[j - |a|];
      if j >= |a| + |b| {
        assert (b + (c + d))[j - |a|] == (c + d)[j - |a| - |b|];
      }
    }
  }

  /** The plan only writes tables whose document was sent, and works through
      them in the fixed order profile, experience, education, skills. */
  lemma PlanTables(u: Upload)
    ensures forall j :: 0 <= j < |Plan(u)| ==> Document(u, TableOf(Plan(u)[j])).Some?
    ensures forall i, j :: 0 <= i <= j < |Plan(u)| ==> Rank(TableOf(Plan(u)[i])) <= Rank(TableOf(Plan(u)[j]))
  {
    forall j | 0 <= j < |Plan(u)|
      ensures Rank(TableOf(Plan(u)[j])) == Stage(u, j)
      ensures Document(u, TableOf(Plan(u)[j])).Some?
    {
      PlanStage(u, j);
    }
  }

  /** A table whose document was not sent is never written, whichever store
      call throws. */
  lemma AbsentDocumentUntouched(u: Upload, s: Store, failAt: Option<nat>, table: Table)
    requires Document(u, table).None?
    ensures SameTable(s, Run(u, s, failAt).1, table)
  {
    var j := RunIsPrefix(u, s, failAt);
    PlanTables(u);
    ApplyAllOtherTables(s, Plan(u)[..j], table);
  }

  /** When the store call numbered `k` throws, the reply is the error and
      every table after the throwing call's table is as it was. */
  lemma FailureSkipsLaterTables(u: Upload, s: Store, k: nat, table: Table)
    requires k < |Plan(u)| && Rank(TableOf(Plan(u)[k])) < Rank(table)
    ensures Run(u, s, Some(k)) == (ImportFailed, Run(u, s, Some(k)).1)
    ensures SameTable(Run(u, s, Some(k)).1, s, table)
  {
    var p := Plan(u);
    ExecAtFault(s, NoCounts, p, 0, k);
    PlanTables(u);
    forall i | 0 <= i < k
      ensures TableOf(p[i]) != table
    {
      assert Rank(TableOf(p[i])) <= Rank(TableOf(p[k]));
    }
    PrefixSkipsTable(s, p, k, table);
  }

  /** The first `k` calls, when none of them writes `table`, leave it as it was. */
  lemma PrefixSkipsTable(s: Store, calls: seq<Call>, k: nat, table: Table)
    requires k <= |calls|
    requires forall i :: 0 <= i < k ==> TableOf(calls[i]) != table
    ensures SameTable(s, ApplyAll(s, calls[..k]), table)
  {
    assert forall i :: 0 <= i < |calls[..k]| ==> calls[..k][i] == calls[i];
    ApplyAllOtherTables(s, calls[..k], table);
  }

  /** When the store call numbered `k` throws, every table the handler
      finished before the throwing call's table already holds its final
      contents: nothing is rolled back. */
  lemma FailureKeepsEarlierTables(u: Upload, s: Store, k: nat, table: Table)
    requires k < |Plan(u)| && Rank(table) < Rank(TableOf(Plan(u)[k]))
    ensures Run(u, s, Some(k)) == (ImportFailed, Run(u, s, Some(k)).1)
    ensures SameTable(Run(u, s, Some(k)).1, Effect(u, s), table)
  {
    var p := Plan(u);
    ExecAtFault(s, NoCounts, p, 0, k);
    PlanTables(u);
    forall i | k <= i < |p|
      ensures TableOf(p[i]) != table
    {
      assert Rank(TableOf(p[k])) <= Rank(TableOf(p[i]));
    }
    PrefixKeepsTable(s, p, k, table);
    PlanEffect(u, s);
  }

  /** Calls after position `k` that write other tables leave `table` as the
      first `k` calls left it. */
  lemma PrefixKeepsTable(s: Store, calls: seq<Call>, k: nat, table: Table)
    requires k <= |calls|
    requires forall i :: k <= i < |calls| ==> TableOf(calls[i]) != table
    ensures SameTable(ApplyAll(s, calls[..k]), ApplyAll(s, calls), table)
  {
    assert calls == calls[..k] + calls[k..];
    assert forall i :: 0 <= i < |calls[k..]| ==> calls[k..][i] == calls[k + i];
    ApplyAllAppend(s, calls[..k], calls[k..]);
    ApplyAllOtherTables(ApplyAll(s, calls[..k]), calls[k..], table);
  }

  /** The counter a table's creates bump. */
  function Counted(c: Counts, table: Table): nat {
    match table
    case ProfileTable => c.profile
    case ExperienceTable => c.experience
    case EducationTable => c.education
    case SkillTable => c.skills
  }

  /** How many records a table holds. */
  function Size(s: Store, table: Table): nat {
    match table
    case ProfileTable => |s.profiles|
    case ExperienceTable => |s.experience|
    case EducationTable => |s.education|
    case SkillTable => |s.skills|
  }

  /** The counters of a successful import: the profile counter is 1 exactly
      when the profile document has a data line, and then the "default"
      profile exists; each other counter is the number of records its table
      holds afterwards, or 0 when its document was not sent. */
  lemma ReportedCounts(u: Upload, s: Store, table: Table)
    ensures Run(u, s, None).0.Imported?
    ensures Run(u, s, None).0.counts.profile ==
              if u.profile.Some? && Count(Trim(u.profile.value), '\n') > 0 then 1 else 0
    ensures Run(u, s, None).0.counts.profile == 1 ==> DefaultId in Run(u, s, None).1.profiles
    ensures table != ProfileTable && Document(u, table).Some? ==>
              Counted(Run(u, s, None).0.counts, table) == Size(Run(u, s, None).1, table)
    ensures Document(u, table).None? ==> Counted(Run(u, s, None).0.counts, table) == 0
  {
    RunWithoutFault(u, s, None);
  }

  /** A sent document with a header line only still clears its table: the
      delete is issued and no record follows. */
  lemma HeaderOnlyDocumentClears(u: Upload, s: Store, table: Table)
    requires table != ProfileTable && Document(u, table).Some?
    requires '\n' !in Trim(Document(u, table).value)
    ensures Run(u, s, None).0.Imported?
    ensures Size(Run(u, s, None).1, table) == 0
    ensures Counted(Run(u, s, None).0.counts, table) == 0
  {
    RunWithoutFault(u, s, None);
    HeaderOnlyHasNoRows(Document(u, table).value);
  }

  /** The records kept from `rows[i..]` carry, as `order`, the index of the
      row each was made from; they come in row order; and every row the
      mapper keeps is among them. */
  lemma {:induction false} KeptFollowsRows<T>(rows: seq<Row>, i: nat, mapper: (Row, nat) -> Option<T>, order: T -> nat)
    requires i <= |rows|
    requires forall row, j :: mapper(row, j).Some? ==> order(mapper(row, j).value) == j
    ensures forall m :: 0 <= m < |Kept(rows, i, mapper)| ==>
              i <= order(Kept(rows, i, mapper)[m]) < |rows| &&
              mapper(rows[order(Kept(rows, i, mapper)[m])], order(Kept(rows, i, mapper)[m])) == Some(Kept(rows, i, mapper)[m])
    ensures forall m, m' :: 0 <= m < m' < |Kept(rows, i, mapper)| ==>
              order(Kept(rows, i, mapper)[m]) < order(Kept(rows, i, mapper)[m'])
    ensures forall j :: i <= j < |rows| && mapper(rows[j], j).Some? ==> mapper(rows[j], j).value in Kept(rows, i, mapper)
    decreases |rows| - i
  {
    if i < |rows| {
      KeptFollowsRows(rows, i + 1, mapper, order);
      var rest := Kept(rows, i + 1, mapper);
      var kept := Kept(rows, i, mapper);
      match mapper(rows[i], i)
      case Some(r) =>
        assert kept == [r] + rest;
        assert forall m :: 1 <= m < |kept| ==> kept[m] == rest[m - 1];
      case None =>
        assert kept == rest;
    }
  }

  /** Experience records follow the positions rows: `order` is the raw row
      index, so a skipped row leaves a gap in the numbering. */
  lemma ExperienceRecordsFollowRows(doc: string)
    ensures var rows := ParseCsv(doc); var records := ExperienceRecords(doc);
      (forall m :: 0 <= m < |records| ==>
         records[m].order < |rows| && MapExperience(rows[records[m].order], records[m].order) == Some(records[m])) &&
      (forall m, m' :: 0 <= m < m' < |records| ==> records[m].order < records[m'].order) &&
      (forall j :: 0 <= j < |rows| && MapExperience(rows[j], j).Some? ==> MapExperience(rows[j], j).value in records)
  {
    KeptFollowsRows(ParseCsv(doc), 0, MapExperience, (e: Experience) => e.order);
  }

  /** Education records follow the education rows in the same way. */
  lemma EducationRecordsFollowRows(doc: string)
    ensures var rows := ParseCsv(doc); var records := EducationRecords(doc);
      (forall m :: 0 <= m < |records| ==>
         records[m].order < |rows| && MapEducation(rows[records[m].order], records[m].order) == Some(records[m])) &&
      (forall m, m' :: 0 <= m < m' < |records| ==> records[m].order < records[m'].order) &&
      (forall j :: 0 <= j < |rows| && MapEducation(rows[j], j).Some? ==> MapEducation(rows[j], j).value in records)
  {
    KeptFollowsRows(ParseCsv(doc), 0, MapEducation, (e: Education) => e.order);
  }

  /** Skills follow the skills rows in the same way. */
  lemma SkillRecordsFollowRows(doc: string)
    ensures var rows := ParseCsv(doc); var records := SkillRecords(doc);
      (forall m :: 0 <= m < |records| ==>
         records[m].order < |rows| && MapSkill(rows[records[m].order], records[m].order) == Some(records[m])) &&
      (forall m, m' :: 0 <= m < m' < |records| ==> records[m].order < records[m'].order) &&
      (forall j :: 0 <= j < |rows| && MapSkill(rows[j], j).Some? ==> MapSkill(rows[j], j).value in records)
  {
    KeptFollowsRows(ParseCsv(doc), 0, MapSkill, (k: Skill) => k.order);
  }
}

=== FILE: store.dfy ===
/** The database the import writes to, reduced to the four tables it touches,
    and the store calls the handler issues: `profile.upsert`,
    `experience/education/skill.deleteMany({})` and `.create`. Each call
    either takes full effect or throws and changes nothing. */
module Store {
  import opened Wrappers
  import opened Mapping

  /** A stored profile. `otherColumns` stands for the columns the import
      never writes (location, links, ...); an update keeps them and a create
      leaves them at their defaults, here no entries. */
  datatype Profile = Profile(
    name: string,
    headline: Option<string>,
    summary: Option<string>,
    email: Option<string>,
    otherColumns: map<string, string>)

  /** Profiles by id; the other tables as their rows in insertion order. */
  datatype Store = Store(
    profiles: map<string, Profile>,
    experience: seq<Experience>,
    education: seq<Education>,
    skills: seq<Skill>)

  /** The id the import upserts. */
  const DefaultId: string := "default"

  datatype Call =
    | UpsertProfile(fields: ProfileFields)
    | DeleteAllExperience
    | CreateExperience(experience: Experience)
    | DeleteAllEducation
    | CreateEducation(education: Education)
    | DeleteAllSkills
    | CreateSkill(skill: Skill)

  /** The four things a call can change. */
  datatype Table = ProfileTable | ExperienceTable | EducationTable | SkillTable

  /** The table a call writes. */
  function TableOf(c: Call): Table {
    match c
    case UpsertProfile(_) => ProfileTable
    case DeleteAllExperience | CreateExperience(_) => ExperienceTable
    case DeleteAllEducation | CreateEducation(_) => EducationTable
    case DeleteAllSkills | CreateSkill(_) => SkillTable
  }

  /** `s` and `t` hold the same contents in `table`. */
  predicate SameTable(s: Store, t: Store, table: Table) {
    match table
    case ProfileTable => s.profiles == t.profiles
    case ExperienceTable => s.experience == t.experience
    case EducationTable => s.education == t.education
    case SkillTable => s.skills == t.skills
  }

  /** `profile.upsert({ where: { id: "default" }, create, update })` with the
      same fields in `create` and `update`: every other profile is left
      alone, and the "default" profile ends up holding `fields`. */
  function Upsert(profiles: map<string, Profile>, fields: ProfileFields): (r: map<string, Profile>)
    ensures r.Keys == profiles.Keys + {DefaultId}
    ensures forall id :: id in profiles && id != DefaultId ==> r[id] == profiles[id]
    ensures r[DefaultId].name == fields.name && r[DefaultId].headline == fields.headline
    ensures r[DefaultId].summary == fields.summary && r[DefaultId].email == fields.email
    ensures DefaultId in profiles ==> r[DefaultId].otherColumns == profiles[DefaultId].otherColumns
    ensures DefaultId !in profiles ==> r[DefaultId].otherColumns == map[]
  {
    var kept := if DefaultId in profiles then profiles[DefaultId].otherColumns else map[];
    profiles[DefaultId := Profile(fields.name, fields.headline, fields.summary, fields.email, kept)]
  }

  /** Upserting the same fields twice is the same as upserting them once. */
  lemma UpsertIdempotent(profiles: map<string, Profile>, fields: ProfileFields)
    ensures Upsert(Upsert(profiles, fields), fields) == Upsert(profiles, fields)
  {
  }

  /** The effect of one successful call. */
  function Apply(s: Store, c: Call): (t: Store)
    ensures forall table :: table != TableOf(c) ==> SameTable(s, t, table)
  {
    match c
    case UpsertProfile(fields) => s.(profiles := Upsert(s.profiles, fields))
    case DeleteAllExperience => s.(experience := [])
    case CreateExperience(e) => s.(experience := s.experience + [e])
    case DeleteAllEducation => s.(education := [])
    case CreateEducation(e) => s.(education := s.education + [e])
    case DeleteAllSkills => s.(skills := [])
    case CreateSkill(k) => s.(skills := s.skills + [k])
  }

  /** The effect of a run of successful calls, first to last. */
  function ApplyAll(s: Store, calls: seq<Call>): Store
    decreases |calls|
  {
    if calls == [] then s else ApplyAll(Apply(s, calls[0]), calls[1..])
  }

  lemma {:induction false} ApplyAllAppend(s: Store, a: seq<Call>, b: seq<Call>)
    ensures ApplyAll(s, a + b) == ApplyAll(ApplyAll(s, a), b)
    decreases |a|
  {
    if a == [] {
      assert a + b == b;
    } else {
      assert (a + b)[0] == a[0] && (a + b)[1..] == a[1..] + b;
      ApplyAllAppend(Apply(s, a[0]), a[1..], b);
    }
  }

  /** Calls that write other tables leave `table` as it was. */
  lemma {:induction false} ApplyAllOtherTables(s: Store, calls: seq<Call>, table: Table)
    requires forall k :: 0 <= k < |calls| ==> TableOf(calls[k]) != table
    ensures SameTable(s, ApplyAll(s, calls), table)
    decreases |calls|
  {
    if calls != [] {
      ApplyAllOtherTables(Apply(s, calls[0]), calls[1..], table);
    }
  }
}

=== FILE: text.dfy ===
/** The JavaScript string primitives the importer relies on:
    `String.prototype.trim`, `String.prototype.split` with a one-character
    separator, and the global replacement `replace(/^"|"$/g, "")` that removes
    one leading and one trailing double quote. Strings are sequences of
    Dafny characters (Unicode scalar values); the UTF-16 surrogate code
    units of the JavaScript string are not modelled. */
module Text {

  /** ECMAScript WhiteSpace and LineTerminator code points: the set `trim`
      removes and `parseInt` skips. The space separators are those of
      Unicode category Zs. */
  const Whitespace: set<char> := {
    '\t', '\n', '\U{000B}', '\U{000C}', '\r', ' ', '\U{00A0}', '\U{1680}',
    '\U{2000}', '\U{2001}', '\U{2002}', '\U{2003}', '\U{2004}', '\U{2005}',
    '\U{2006}', '\U{2007}', '\U{2008}', '\U{2009}', '\U{200A}',
    '\U{2028}', '\U{2029}', '\U{202F}', '\U{205F}', '\U{3000}', '\U{FEFF}'
  }

  predicate IsWhitespace(c: char) {
    c in Whitespace
  }

  predicate AllWhitespace(s: string) {
    forall k :: 0 <= k < |s| ==> IsWhitespace(s[k])
  }

  /** Neither end of `s` is whitespace. */
  predicate IsTrimmed(s: string) {
    s == [] || (!IsWhitespace(s[0]) && !IsWhitespace(s[|s| - 1]))
  }

  /** Length of the whitespace run that starts `s`. */
  function LeadingSpaces(s: string): (n: nat)
    ensures n <= |s|
    ensures forall k :: 0 <= k < n ==> IsWhitespace(s[k])
    ensures n < |s| ==> !IsWhitespace(s[n])
  {
    if |s| > 0 && IsWhitespace(s[0]) then
      var n := 1 + LeadingSpaces(s[1..]);
      assert forall k :: 1 <= k < n ==> s[k] == s[1..][k - 1];
      n
    else 0
  }

  /** Length of the whitespace run that ends `s`. */
  function TrailingSpaces(s: string): (n: nat)
    ensures n <= |s|
    ensures forall k :: |s| - n <= k < |s| ==> IsWhitespace(s[k])
    ensures n < |s| ==> !IsWhitespace(s[|s| - n - 1])
  {
    if |s| > 0 && IsWhitespace(s[|s| - 1]) then
      var rest := s[..|s| - 1];
      var n := 1 + TrailingSpaces(rest);
      assert forall k :: |s| - n <= k < |s| - 1 ==> s[k] == rest[k];
      n
    else 0
  }

  /** `s.trim()`. */
  function Trim(s: string): (r: string)
    ensures |r| <= |s|
    ensures IsTrimmed(r)
    ensures AllWhitespace(s) <==> r == []
  {
    var a := LeadingSpaces(s);
    var t := s[a..];
    var b := TrailingSpaces(t);
    TrimBounds(s, a, t, b);
    t[..|t| - b]
  }

  /** The facts behind `Trim`'s contract, from those of `LeadingSpaces` and
      `TrailingSpaces`. */
  lemma TrimBounds(s: string, a: nat, t: string, b: nat)
    requires a == LeadingSpaces(s) && t == s[a..] && b == TrailingSpaces(t)
    ensures IsTrimmed(t[..|t| - b])
    ensures AllWhitespace(s) <==> b == |t|
  {
    TrimEnds(s, a, t, b);
    if a < |s| {
      assert !IsWhitespace(s[a]);
    }
    if b == |t| {
      assert a == |s|;
    }
  }

  lemma TrimEnds(s: string, a: nat, t: string, b: nat)
    requires a == LeadingSpaces(s) && t == s[a..] && b == TrailingSpaces(t)
    ensures IsTrimmed(t[..|t| - b])
  {
    var r := t[..|t| - b];
    if r != [] {
      assert r[0] == s[a];
      assert r[|r| - 1] == t[|t| - b - 1];
    }
  }

  /** Trimming removes exactly the whitespace padding around a trimmed core:
      whatever surrounds `core`, as long as it is whitespace, is dropped. */
  lemma {:induction false} TrimOfPadded(pre: string, core: string, post: string)
    requires AllWhitespace(pre) && AllWhitespace(post)
    requires IsTrimmed(core)
    ensures Trim(pre + core + post) == core
  {
    var s := pre + core + post;
    if core == [] {
      assert AllWhitespace(s);
    } else {
      var a := LeadingSpaces(s);
      assert s[|pre|] == core[0];
      assert a == |pre|;
      var t := s[a..];
      assert t == core + post;
      var b := TrailingSpaces(t);
      assert t[|t| - |post| - 1] == core[|core| - 1];
      assert forall k :: |t| - |post| <= k < |t| ==> t[k] == post[k - (|t| - |post|)];
      assert !IsWhitespace(t[|t| - |post| - 1]);
      assert b == |post|;
      assert t[..|t| - b] == core;
    }
  }

  /** Trimming only removes characters. */
  lemma TrimWithin(s: string)
    ensures forall c :: c in Trim(s) ==> c in s
  {
    var a := LeadingSpaces(s);
    var t := s[a..];
    var b := TrailingSpaces(t);
    assert Trim(s) == s[a..|s| - b];
  }

  /** A string with no whitespace at either end trims to itself. */
  lemma TrimTrimmed(s: string)
    requires IsTrimmed(s)
    ensures Trim(s) == s
  {
    TrimOfPadded([], s, []);
    assert [] + s + [] == s;
  }

  /** Trimming is idempotent. */
  lemma TrimIdempotent(s: string)
    ensures Trim(Trim(s)) == Trim(s)
  {
    TrimTrimmed(Trim(s));
  }

  /** `${first} ${last}`.trim() for trimmed names: an empty name on either
      side takes the space with it. */
  lemma TrimJoined(first: string, last: string)
    requires IsTrimmed(first) && IsTrimmed(last)
    ensures Trim(first + " " + last) ==
              if first == [] then last
              else if last == [] then first
              else first + " " + last
  {
    if first == [] {
      assert AllWhitespace(" ");
      TrimOfPadded(" ", last, []);
      assert " " + last + [] == first + " " + last;
    } else if last == [] {
      assert first + " " + last == first + " ";
      TrimTrailingSpace(first);
    } else {
      var full := first + " " + last;
      assert full[0] == first[0] && full[|full| - 1] == last[|last| - 1];
      TrimTrimmed(full);
    }
  }

  lemma TrimTrailingSpace(s: string)
    requires IsTrimmed(s)
    ensures Trim(s + " ") == s
  {
    assert AllWhitespace(" ");
    TrimOfPadded([], s, " ");
    assert [] + s + " " == s + " ";
  }

  /** Number of occurrences of `c` in `s`. */
  function Count(s: string, c: char): nat {
    if s == [] then 0 else (if s[0] == c then 1 else 0) + Count(s[1..], c)
  }

  lemma CountAbsent(s: string, c: char)
    requires c !in s
    ensures Count(s, c) == 0
  {
    if s != [] {
      assert c !in s[1..] by {
        assert forall k :: 0 <= k < |s[1..]| ==> s[1..][k] == s[k + 1];
      }
      CountAbsent(s[1..], c);
    }
  }

  lemma {:induction false} CountAppend(a: string, b: string, c: char)
    ensures Count(a + b, c) == Count(a, c) + Count(b, c)
  {
    if a == [] {
      assert a + b == b;
    } else {
      assert (a + b)[1..] == a[1..] + b;
      CountAppend(a[1..], b, c);
    }
  }

  /** `s.split(sep)` for a one-character separator: the maximal
      separator-free pieces, in order; an empty string gives `[""]`. */
  function Split(s: string, sep: char): (parts: seq<string>)
    ensures |parts| >= 1
    ensures forall k :: 0 <= k < |parts| ==> sep !in parts[k]
  {
    if s == [] then [[]]
    else if s[0] == sep then [[]] + Split(s[1..], sep)
    else
      var rest := Split(s[1..], sep);
      [[s[0]] + rest[0]] + rest[1..]
  }

  /** The pieces glued back together with the separator between them. */
  function Join(parts: seq<string>, sep: char): string
    requires |parts| >= 1
  {
    if |parts| == 1 then parts[0] else parts[0] + [sep] + Join(parts[1..], sep)
  }

  /** Split then join gives back the original string. */
  lemma {:induction false} JoinSplit(s: string, sep: char)
    ensures Join(Split(s, sep), sep) == s
  {
    if s == [] {
    } else if s[0] == sep {
      JoinSplit(s[1..], sep);
      assert Split(s, sep)[1..] == Split(s[1..], sep);
    } else {
      var rest := Split(s[1..], sep);
      JoinSplit(s[1..], sep);
      var parts := Split(s, sep);
      if |rest| == 1 {
        assert parts == [[s[0]] + rest[0]];
      } else {
        assert parts[1..] == rest[1..];
        assert Join(rest, sep) == rest[0] + [sep] + Join(rest[1..], sep);
      }
    }
  }

  /** Joining separator-free pieces and splitting again gives the pieces back. */
  lemma {:induction false} SplitJoin(parts: seq<string>, sep: char)
    requires |parts| >= 1
    requires forall k :: 0 <= k < |parts| ==> sep !in parts[k]
    ensures Split(Join(parts, sep), sep) == parts
  {
    if |parts| == 1 {
      SplitFree(parts[0], sep);
    } else {
      SplitJoin(parts[1..], sep);
      SplitPrefix(parts[0], Join(parts[1..], sep), sep);
      assert [parts[0]] + parts[1..] == parts;
    }
  }

  /** A separator-free string splits into itself. */
  lemma {:induction false} SplitFree(s: string, sep: char)
    requires sep !in s
    ensures Split(s, sep) == [s]
  {
    if s != [] {
      assert sep !in s[1..] by {
        assert forall k :: 0 <= k < |s[1..]| ==> s[1..][k] == s[k + 1];
      }
      SplitFree(s[1..], sep);
      assert [s[0]] + s[1..] == s;
    }
  }

  /** A separator-free prefix followed by the separator becomes the first piece. */
  lemma {:induction false} SplitPrefix(head: string, tail: string, sep: char)
    requires sep !in head
    ensures Split(head + [sep] + tail, sep) == [head] + Split(tail, sep)
  {
    var s := head + [sep] + tail;
    if head == [] {
      assert s == [sep] + tail;
      assert s[1..] == tail;
    } else {
      assert sep !in head[1..] by {
        assert forall k :: 0 <= k < |head[1..]| ==> head[1..][k] == head[k + 1];
      }
      SplitPrefix(head[1..], tail, sep);
      assert s[1..] == head[1..] + [sep] + tail;
      assert [head[0]] + head[1..] == head;
    }
  }

  /** There is one more piece than there are separators. */
  lemma {:induction false} SplitCount(s: string, sep: char)
    ensures |Split(s, sep)| == Count(s, sep) + 1
  {
    if s != [] {
      SplitCount(s[1..], sep);
    }
  }

  /** `s.replace(/^"|"$/g, "")`: drop one leading `"` and, from what remains,
      one trailing `"`. */
  function StripOuterQuotes(s: string): (r: string)
    ensures |s| - 2 <= |r| <= |s|
  {
    var a := if |s| > 0 && s[0] == '"' then 1 else 0;
    var b := if |s| > a && s[|s| - 1] == '"' then |s| - 1 else |s|;
    s[a..b]
  }

  /** The replacement as the regular-expression engine performs it: scanning
      left to right, the character at position `p` is deleted exactly when one
      of the alternatives `^"` (only at position 0) or `"$` (only at the last
      position) matches there. */
  function ReplaceScan(s: string, p: nat): string
    requires p <= |s|
    decreases |s| - p
  {
    if p == |s| then []
    else if (p == 0 && s[0] == '"') || (p == |s| - 1 && s[p] == '"') then ReplaceScan(s, p + 1)
    else [s[p]] + ReplaceScan(s, p + 1)
  }

  /** Copying the middle of `s` character by character. */
  lemma {:induction false} ReplaceScanMiddle(s: string, p: nat, b: nat)
    requires 0 < p <= b <= |s|
    requires b == |s| || b == |s| - 1
    requires b == |s| - 1 ==> s[|s| - 1] == '"'
    requires b == |s| ==> s[|s| - 1] != '"'
    ensures ReplaceScan(s, p) == s[p..b]
    decreases |s| - p
  {
    if p < b {
      ReplaceScanMiddle(s, p + 1, b);
      assert s[p..b] == [s[p]] + s[p + 1..b];
    } else if p < |s| {
      assert ReplaceScan(s, p + 1) == [];
    }
  }

  /** The closed form agrees with the engine's scan. */
  lemma StripOuterQuotesIsReplaceScan(s: string)
    ensures StripOuterQuotes(s) == ReplaceScan(s, 0)
  {
    if |s| > 0 {
      var a := if s[0] == '"' then 1 else 0;
      var b := if |s| > a && s[|s| - 1] == '"' then |s| - 1 else |s|;
      if a == 1 {
        if |s| == 1 {
          assert ReplaceScan(s, 1) == [];
        } else {
          ReplaceScanMiddle(s, 1, b);
        }
      } else if 1 <= b {
        ReplaceScanMiddle(s, 1, b);
        if b == 1 {
          assert ReplaceScan(s, 0) == [s[0]];
        } else {
          assert s[0..b] == [s[0]] + s[1..b];
        }
      }
    }
  }

  /** Wrapping any string in quotes and stripping them gives it back, even when
      it contains quotes itself. */
  lemma StripWrapped(t: string)
    ensures StripOuterQuotes(['"'] + t + ['"']) == t
  {
    var s := ['"'] + t + ['"'];
    assert s[1..|s| - 1] == t;
  }

  /** A string with no quote at either end is left alone. */
  lemma StripUnquoted(t: string)
    requires t == [] || (t[0] != '"' && t[|t| - 1] != '"')
    ensures StripOuterQuotes(t) == t
  {
    assert t[0..|t|] == t;
  }
}

=== FILE: tokenizer.dfy ===
/** `parseCSV` of the LinkedIn import route: the header line is split on every
    comma, and each data line is cut into the match list of the global regular
    expression `/("([^"]*)"|[^,]*)/g`, as `String.prototype.match` produces it
    (section 22.2.6.8 of ECMA-262). Header `k` receives match `k`; because the
    expression also matches the empty string at every separating comma, that
    is in general not field `k` of the line. Doubled quotes inside a quoted
    field (rule 7 of section 2 of RFC 4180) are not recognised. */
module Tokenizer {
  import opened Text

  /** One parsed line: header name to cleaned cell text. */
  type Row = map<string, string>

  /** First index at or after `p` holding `stop`, or `|line|` when there is none. */
  function RunEnd(line: string, p: nat, stop: char): (e: nat)
    requires p <= |line|
    ensures p <= e <= |line|
    ensures forall k :: p <= k < e ==> line[k] != stop
    ensures e < |line| ==> line[e] == stop
    decreases |line| - p
  {
    if p == |line| || line[p] == stop then p else RunEnd(line, p + 1, stop)
  }

  /** The first alternative `"([^"]*)"` can match at `p`: a quote there and
      another one later in the line. */
  predicate QuoteClosesAfter(line: string, p: nat) {
    p < |line| && line[p] == '"' && '"' in line[p + 1..]
  }

  /** The first alternative matches exactly `line[p..e]`. */
  ghost predicate QuotedAt(line: string, p: nat, e: nat) {
    && p + 2 <= e <= |line|
    && line[p] == '"' && line[e - 1] == '"'
    && forall k :: p < k < e - 1 ==> line[k] != '"'
  }

  /** The greedy second alternative `[^,]*` matches exactly `line[p..e]`. */
  ghost predicate PlainAt(line: string, p: nat, e: nat) {
    && p <= e <= |line|
    && (forall k :: p <= k < e ==> line[k] != ',')
    && (e == |line| || line[e] == ',')
  }

  /** The match the backtracking engine reports at `p`: the first alternative's
      when it can match at all, otherwise the second's. */
  ghost predicate MatchAt(line: string, p: nat, e: nat) {
    if QuoteClosesAfter(line, p) then QuotedAt(line, p, e) else PlainAt(line, p, e)
  }

  /** End of the match that starts at `p`. */
  function TokenEnd(line: string, p: nat): (e: nat)
    requires p <= |line|
    ensures p <= e <= |line|
    ensures MatchAt(line, p, e)
  {
    if p < |line| && line[p] == '"' && RunEnd(line, p + 1, '"') < |line| then
      var q := RunEnd(line, p + 1, '"');
      assert line[p + 1..][q - p - 1] == line[q];
      q + 1
    else
      assert !QuoteClosesAfter(line, p) by {
        if p < |line| {
          var tail := line[p + 1..];
          assert forall k :: 0 <= k < |tail| ==> tail[k] == line[p + 1 + k];
        }
      }
      RunEnd(line, p, ',')
  }

  /** The match at a position is unique. */
  lemma MatchAtUnique(line: string, p: nat, e: nat)
    requires p <= |line|
    requires MatchAt(line, p, e)
    ensures e == TokenEnd(line, p)
  {
    var t := TokenEnd(line, p);
    if QuoteClosesAfter(line, p) {
      assert line[e - 1] == '"' && line[t - 1] == '"';
    } else {
      assert e < |line| ==> line[e] == ',';
      assert t < |line| ==> line[t] == ',';
    }
  }

  /** The match list of the scan started at `p`: after a non-empty match the
      scan resumes at its end, after an empty one at the next position, and it
      stops once the position passes the end of the line. */
  function MatchesFrom(line: string, p: nat): (ts: seq<string>)
    requires p <= |line| + 1
    ensures ts != [] <==> p <= |line|
    decreases |line| + 1 - p
  {
    if p > |line| then []
    else
      var e := TokenEnd(line, p);
      [line[p..e]] + MatchesFrom(line, if e == p then p + 1 else e)
  }

  /** `line.match(/("([^"]*)"|[^,]*)/g) || []`; the list is never empty, so the
      `|| []` fallback never applies. */
  function Matches(line: string): (ts: seq<string>)
    ensures ts != []
  {
    MatchesFrom(line, 0)
  }

  /** A match of the first alternative: quoted, with no quote inside. */
  predicate IsQuotedToken(t: string) {
    |t| >= 2 && t[0] == '"' && t[|t| - 1] == '"' && '"' !in t[1..|t| - 1]
  }

  /** Puts the line back together from its matches: an empty match stands for
      the comma it stopped at, except the last one, which sits at the end. */
  function Rebuild(ts: seq<string>): string
    requires ts != []
  {
    if |ts| == 1 then ts[0]
    else (if ts[0] == [] then [','] else ts[0]) + Rebuild(ts[1..])
  }

  lemma {:induction false} RebuildFrom(line: string, p: nat)
    requires p <= |line|
    ensures Rebuild(MatchesFrom(line, p)) == line[p..]
    decreases |line| - p
  {
    var e := TokenEnd(line, p);
    if p == |line| {
      assert e == p && MatchesFrom(line, p + 1) == [];
      assert MatchesFrom(line, p) == [line[p..e]] + MatchesFrom(line, p + 1);
      assert line[p..e] == [];
    } else {
      var next := if e == p then p + 1 else e;
      var rest := MatchesFrom(line, next);
      RebuildFrom(line, next);
      RebuildCons(line[p..e], rest);
      if e == p {
        assert line[p] == ',';
        DropSplit(line, p, p + 1);
        assert line[p..p + 1] == [','];
      } else {
        DropSplit(line, p, e);
      }
    }
  }

  lemma DropSplit(s: string, p: nat, e: nat)
    requires p <= e <= |s|
    ensures s[p..] == s[p..e] + s[e..]
  {
  }

  lemma RebuildCons(t: string, rest: seq<string>)
    requires rest != []
    ensures Rebuild([t] + rest) == (if t == [] then [','] else t) + Rebuild(rest)
  {
    assert ([t] + rest)[0] == t && ([t] + rest)[1..] == rest;
  }

  /** Round trip: the match list loses nothing of the line. */
  lemma RebuildMatches(line: string)
    ensures Rebuild(Matches(line)) == line
  {
    RebuildFrom(line, 0);
  }

  lemma {:induction false} ShapesFrom(line: string, p: nat)
    requires p <= |line| + 1
    ensures forall j :: 0 <= j < |MatchesFrom(line, p)| ==>
              IsQuotedToken(MatchesFrom(line, p)[j]) || ',' !in MatchesFrom(line, p)[j]
    ensures p <= |line| ==> MatchesFrom(line, p)[|MatchesFrom(line, p)| - 1] == []
    decreases |line| + 1 - p
  {
    if p <= |line| {
      var e := TokenEnd(line, p);
      var next := if e == p then p + 1 else e;
      var rest := MatchesFrom(line, next);
      ShapesFrom(line, next);
      TokenShape(line, p);
      assert MatchesFrom(line, p) == [line[p..e]] + rest;
      if p == |line| {
        assert MatchesFrom(line, p) == [[]];
      }
    }
  }

  /** A single match is a quoted segment or free of commas. */
  lemma TokenShape(line: string, p: nat)
    requires p <= |line|
    ensures IsQuotedToken(line[p..TokenEnd(line, p)]) || ',' !in line[p..TokenEnd(line, p)]
  {
    var t := line[p..TokenEnd(line, p)];
    if QuoteClosesAfter(line, p) {
      var inner := t[1..|t| - 1];
      assert forall k :: 0 <= k < |inner| ==> inner[k] == line[p + 1 + k];
    } else {
      assert forall k :: 0 <= k < |t| ==> t[k] == line[p + k];
    }
  }

  /** Every match is either a quoted segment or free of commas, and the list
      always ends with the empty match at the end of the line. */
  lemma MatchShapes(line: string)
    ensures forall j :: 0 <= j < |Matches(line)| ==>
              IsQuotedToken(Matches(line)[j]) || ',' !in Matches(line)[j]
    ensures Matches(line)[|Matches(line)| - 1] == []
  {
    ShapesFrom(line, 0);
  }

  /** A line starting with a quoted segment: the whole segment, commas
      included, is the first match. */
  lemma QuotedFieldIsOneMatch(body: string, rest: string)
    requires '"' !in body
    ensures Matches(['"'] + body + ['"'] + rest)[0] == ['"'] + body + ['"']
  {
    var line := ['"'] + body + ['"'] + rest;
    var e := |body| + 2;
    assert line[e - 1] == '"';
    assert forall k :: 0 < k < e - 1 ==> line[k] == body[k - 1];
    assert line[1..][e - 2] == '"';
    assert QuoteClosesAfter(line, 0);
    MatchAtUnique(line, 0, e);
    assert line[0..e] == ['"'] + body + ['"'];
  }

  /** Wherever the scan stands, a non-empty match that stops at a comma is
      followed by the empty match at that comma. */
  lemma EmptyMatchAtComma(line: string, p: nat)
    requires p <= |line|
    requires p < TokenEnd(line, p) < |line| && line[TokenEnd(line, p)] == ','
    ensures |MatchesFrom(line, p)| >= 2 && MatchesFrom(line, p)[1] == []
  {
    var e := TokenEnd(line, p);
    assert PlainAt(line, e, e);
    MatchAtUnique(line, e, e);
    assert MatchesFrom(line, p)[1..] == MatchesFrom(line, e);
  }

  /** A quoted first field followed by a comma: the second match is empty. */
  lemma QuotedFieldThenEmpty(body: string, rest: string)
    requires '"' !in body
    ensures |Matches(['"'] + body + ['"', ','] + rest)| >= 2
    ensures Matches(['"'] + body + ['"', ','] + rest)[1] == []
  {
    var line := ['"'] + body + ['"', ','] + rest;
    assert line == ['"'] + body + ['"'] + ([','] + rest);
    QuotedFieldIsOneMatch(body, [','] + rest);
    var e := |body| + 2;
    assert line[..e] == ['"'] + body + ['"'];
    assert TokenEnd(line, 0) == e;
    assert line[e] == ',';
    EmptyMatchAtComma(line, 0);
  }

  /** A line starting with a plain, unquoted field and a comma: the field is
      the first match and the comma yields an empty second match. */
  lemma PlainFieldThenEmpty(f: string, rest: string)
    requires f != [] && f[0] != '"' && ',' !in f
    ensures |Matches(f + [','] + rest)| >= 2
    ensures Matches(f + [','] + rest)[0] == f
    ensures Matches(f + [','] + rest)[1] == []
  {
    var line := f + [','] + rest;
    assert forall k :: 0 <= k < |f| ==> line[k] == f[k];
    assert line[|f|] == ',';
    assert PlainAt(line, 0, |f|);
    MatchAtUnique(line, 0, |f|);
    assert line[0..|f|] == f;
    var ts := MatchesFrom(line, |f|);
    assert PlainAt(line, |f|, |f|);
    MatchAtUnique(line, |f|, |f|);
  }

  /** A cell as stored: trimmed first, then one outer quote removed on each side. */
  function CleanCell(s: string): (r: string)
    ensures '"' !in s ==> r == Trim(s)
  {
    StripTrimmedUnquoted(s);
    StripOuterQuotes(Trim(s))
  }

  /** Without any quote in `s`, the strip after the trim has nothing to do. */
  lemma StripTrimmedUnquoted(s: string)
    ensures '"' !in s ==> StripOuterQuotes(Trim(s)) == Trim(s)
  {
    if '"' !in s {
      TrimWithin(s);
      StripUnquoted(Trim(s));
    }
  }

  /** `values[index] || ""`, cleaned. */
  function Cell(values: seq<string>, index: nat): string {
    CleanCell(if index < |values| then values[index] else [])
  }

  /** A quoted match is stored as its contents, inner whitespace and commas kept. */
  lemma CleanQuoted(body: string)
    requires '"' !in body
    ensures CleanCell(['"'] + body + ['"']) == body
  {
    var t := ['"'] + body + ['"'];
    TrimTrimmed(t);
    StripWrapped(body);
  }

  /** No later header has the same name as header `k`. */
  ghost predicate LastOccurrence(headers: seq<string>, k: int) {
    0 <= k < |headers| && forall j :: k < j < |headers| ==> headers[j] != headers[k]
  }

  /** The cells of one line for `n` headers: `values[index] || ""`, cleaned. */
  function Cells(values: seq<string>, n: nat): (cells: seq<string>)
    ensures |cells| == n
    ensures forall k :: 0 <= k < n ==> cells[k] == Cell(values, k)
  {
    seq(n, k requires 0 <= k < n => Cell(values, k))
  }

  /** `headers.forEach((header, index) => row[header] = ...)`: every header
      becomes a key, and a repeated header keeps the cell of its last
      occurrence. */
  function BuildRow(headers: seq<string>, cells: seq<string>): (row: Row)
    requires |cells| == |headers|
    ensures row.Keys == Elems(headers)
    ensures forall k {:trigger LastOccurrence(headers, k)} ::
              LastOccurrence(headers, k) ==> row[headers[k]] == cells[k]
  {
    if headers == [] then map[]
    else
      var n := |headers| - 1;
      var prev := BuildRow(headers[..n], cells[..n]);
      var row := prev[headers[n] := cells[n]];
      assert row.Keys == Elems(headers) by {
        ElemsSnoc(headers);
      }
      assert forall k {:trigger LastOccurrence(headers, k)} ::
          LastOccurrence(headers, k) ==> row[headers[k]] == cells[k] by {
        forall k | LastOccurrence(headers, k)
          ensures row[headers[k]] == cells[k]
        {
          if k < n {
            assert LastOccurrence(headers[..n], k);
          }
        }
      }
      row
  }

  /** The names in a header list. */
  function Elems(xs: seq<string>): set<string> {
    set h | h in xs
  }

  lemma ElemsSnoc(xs: seq<string>)
    requires xs != []
    ensures Elems(xs) == Elems(xs[..|xs| - 1]) + {xs[|xs| - 1]}
  {
    assert xs == xs[..|xs| - 1] + [xs[|xs| - 1]];
  }

  /** The lines of the trimmed document. */
  function Lines(content: string): (lines: seq<string>)
    ensures |lines| >= 1
  {
    Split(Trim(content), '\n')
  }

  /** Header names: the first line split on every comma, each cleaned. */
  function Headers(content: string): (headers: seq<string>)
    ensures |headers| == Count(Lines(content)[0], ',') + 1
  {
    SplitCount(Lines(content)[0], ',');
    var parts := Split(Lines(content)[0], ',');
    seq(|parts|, k requires 0 <= k < |parts| => CleanCell(parts[k]))
  }

  /** One data line as a row: each header mapped to the cleaned match at its
      position, `""` past the end of the match list. */
  function ParseRow(headers: seq<string>, line: string): (row: Row)
    ensures row.Keys == Elems(headers)
    ensures forall k {:trigger LastOccurrence(headers, k)} ::
              LastOccurrence(headers, k) ==> row[headers[k]] == Cell(Matches(line), k)
  {
    BuildRow(headers, Cells(Matches(line), |headers|))
  }

  /** `parseCSV(content)`: one row per line after the header (blank lines
      included) and nothing when the document has no second line; row `i`
      is read from line `i + 1` of the trimmed document. */
  function ParseCsv(content: string): (rows: seq<Row>)
    ensures |rows| == Count(Trim(content), '\n')
    ensures |rows| > 0 ==> |Lines(content)| == |rows| + 1
    ensures forall i :: 0 <= i < |rows| ==> rows[i] == ParseRow(Headers(content), Lines(content)[i + 1])
  {
    SplitCount(Trim(content), '\n');
    if |Lines(content)| < 2 then [] else ParseRows(Headers(content), Lines(content)[1..])
  }

  /** The loop over the lines from index 1 that pushes one row per data
      line, in order. */
  function ParseRows(headers: seq<string>, lines: seq<string>): (rows: seq<Row>)
    ensures |rows| == |lines|
    ensures forall i :: 0 <= i < |lines| ==> rows[i] == ParseRow(headers, lines[i])
  {
    seq(|lines|, i requires 0 <= i < |lines| => ParseRow(headers, lines[i]))
  }

  /** Every row has every header as a key, and a header that occurs once (or
      last) holds the cleaned match at its own position in the row's line. */
  lemma ParseCsvCells(content: string, i: nat, k: nat)
    requires i < |ParseCsv(content)|
    requires LastOccurrence(Headers(content), k)
    ensures ParseCsv(content)[i].Keys == Elems(Headers(content))
    ensures ParseCsv(content)[i][Headers(content)[k]] == Cell(Matches(Lines(content)[i + 1]), k)
  {
  }

  /** The rows follow the document's lines: joining the lines back with
      newlines gives the trimmed document. */
  lemma LinesRebuildDocument(content: string)
    ensures Join(Lines(content), '\n') == Trim(content)
  {
    JoinSplit(Trim(content), '\n');
  }

  /** A document without a second line has no rows. */
  lemma HeaderOnlyHasNoRows(content: string)
    requires '\n' !in Trim(content)
    ensures ParseCsv(content) == []
  {
    CountAbsent(Trim(content), '\n');
  }

  /** A plain value: non-empty, no padding, no quote, comma or newline. */
  predicate IsPlainValue(s: string) {
    s != [] && IsTrimmed(s) && '"' !in s && ',' !in s && '\n' !in s
  }

  lemma PlainValueClean(s: string)
    requires IsPlainValue(s)
    ensures CleanCell(s) == s
  {
    assert s[0] in s && s[|s| - 1] in s;
    CleanPlain(s);
  }

  /** `u,v` for plain `u` and `v` has no newline. */
  lemma PairHasNoNewline(u: string, v: string)
    requires IsPlainValue(u) && IsPlainValue(v)
    ensures '\n' !in u + [','] + v
  {
    var w := u + [','] + v;
    assert forall k :: 0 <= k < |w| ==> w[k] == (if k < |u| then u[k] else if k == |u| then ',' else v[k - |u| - 1]);
  }

  /** The two-line document `header` / `line` splits into exactly those lines. */
  lemma TwoLines(header: string, line: string)
    requires header != [] && line != []
    requires IsTrimmed(header) && IsTrimmed(line)
    requires '\n' !in header && '\n' !in line
    ensures Lines(header + ['\n'] + line) == [header, line]
  {
    var content := header + ['\n'] + line;
    assert content[0] == header[0] && content[|content| - 1] == line[|line| - 1];
    TrimTrimmed(content);
    var parts := [header, line];
    assert parts[1..] == [line];
    assert Join(parts, '\n') == content;
    assert parts[0] == header && parts[1] == line;
    SplitJoin(parts, '\n');
  }

  /** The header line `a,b` names the two columns `a` and `b`. */
  lemma TwoHeaders(a: string, b: string, line: string)
    requires IsPlainValue(a) && IsPlainValue(b) && line != [] && IsTrimmed(line) && '\n' !in line
    ensures Headers(a + [','] + b + ['\n'] + line) == [a, b]
  {
    var header := a + [','] + b;
    PairHasNoNewline(a, b);
    assert header[0] == a[0] && header[|header| - 1] == b[|b| - 1];
    TwoLines(header, line);
    assert Lines(header + ['\n'] + line)[0] == header;
    var parts := [a, b];
    assert parts[1..] == [b];
    assert Join(parts, ',') == header;
    assert parts[0] == a && parts[1] == b;
    SplitJoin(parts, ',');
    var hs := Headers(header + ['\n'] + line);
    assert |hs| == 2 && hs[0] == CleanCell(a) && hs[1] == CleanCell(b);
    PlainValueClean(a);
    PlainValueClean(b);
  }

  /** Header `k` does not receive field `k`: for the two-column document
      `a,b` / `x,y` the second header gets the empty match at the comma, and
      `y` is stored nowhere. */
  lemma FieldsAreNotZipped(a: string, b: string, x: string, y: string)
    requires IsPlainValue(a) && IsPlainValue(b) && IsPlainValue(x) && IsPlainValue(y)
    requires a != b
    ensures ParseCsv(a + [','] + b + ['\n'] + x + [','] + y) == [map[a := x, b := []]]
  {
    var header := a + [','] + b;
    var line := x + [','] + y;
    var content := header + ['\n'] + line;
    assert content == a + [','] + b + ['\n'] + x + [','] + y;
    PairHasNoNewline(a, b);
    PairHasNoNewline(x, y);
    assert line[0] == x[0] && line[|line| - 1] == y[|y| - 1];
    assert header[0] == a[0] && header[|header| - 1] == b[|b| - 1];
    TwoLines(header, line);
    TwoHeaders(a, b, line);
    var rows := ParseCsv(content);
    assert |rows| == 1;
    assert rows[0] == ParseRow([a, b], line);
    PlainPairRow(a, b, x, y);
    assert rows == [rows[0]];
  }

  /** The row read from `x,y` under the headers `a`, `b`. */
  lemma PlainPairRow(a: string, b: string, x: string, y: string)
    requires IsPlainValue(x) && a != b
    ensures ParseRow([a, b], x + [','] + y) == map[a := x, b := []]
  {
    var headers, line := [a, b], x + [','] + y;
    assert x[0] in x;
    PlainFieldThenEmpty(x, y);
    var ms := Matches(line);
    var row := ParseRow(headers, line);
    assert LastOccurrence(headers, 0) && LastOccurrence(headers, 1);
    assert row[a] == x by {
      assert row[headers[0]] == Cell(ms, 0) && ms[0] == x;
      PlainValueClean(x);
    }
    assert row[b] == [] by {
      assert row[headers[1]] == Cell(ms, 1) && ms[1] == [];
      CleanPlain([]);
    }
    assert row.Keys == {a, b} by {
      assert Elems(headers) == {a, b};
    }
  }

  /** A quoted first field is stored whole under the first header, without
      its quotes, with its commas and inner padding. */
  lemma QuotedFirstField(headers: seq<string>, body: string, rest: string)
    requires LastOccurrence(headers, 0)
    requires '"' !in body
    ensures ParseRow(headers, ['"'] + body + ['"'] + rest)[headers[0]] == body
  {
    QuotedFieldIsOneMatch(body, rest);
    CleanQuoted(body);
  }

  /** An unquoted first field without commas, ending the line or followed by
      a comma, is stored, trimmed, under the first header; this covers every
      line of a one-column document. */
  lemma PlainFirstField(headers: seq<string>, f: string, rest: string)
    requires LastOccurrence(headers, 0)
    requires '"' !in f && ',' !in f
    requires rest == [] || rest[0] == ','
    ensures ParseRow(headers, f + rest)[headers[0]] == Trim(f)
  {
    var line := f + rest;
    assert forall k :: 0 <= k < |f| ==> line[k] == f[k];
    assert !QuoteClosesAfter(line, 0) by {
      if f != [] {
        assert f[0] in f;
      }
    }
    assert PlainAt(line, 0, |f|);
    MatchAtUnique(line, 0, |f|);
    assert line[0..|f|] == f;
  }

  /** The quoted header line `"a","b"` also names the columns `a` and `b`:
      each name loses its quotes. */
  lemma QuotedTwoHeaders(a: string, b: string, line: string)
    requires IsPlainValue(a) && IsPlainValue(b) && line != [] && IsTrimmed(line) && '\n' !in line
    ensures Headers(['"'] + a + ['"', ','] + ['"'] + b + ['"', '\n'] + line) == [a, b]
  {
    var qa, qb := ['"'] + a + ['"'], ['"'] + b + ['"'];
    var header := qa + [','] + qb;
    assert ['"'] + a + ['"', ','] + ['"'] + b + ['"', '\n'] + line == header + ['\n'] + line;
    assert ',' !in qa && ',' !in qb && '\n' !in header;
    assert header[0] == '"' && header[|header| - 1] == '"';
    TwoLines(header, line);
    var parts := [qa, qb];
    assert parts[1..] == [qb];
    assert Join(parts, ',') == header;
    SplitJoin(parts, ',');
    var hs := Headers(header + ['\n'] + line);
    assert |hs| == 2 && hs[0] == CleanCell(qa) && hs[1] == CleanCell(qb);
    CleanQuoted(a);
    CleanQuoted(b);
  }

  /** A short unquoted, unpadded cell is stored unchanged. */
  lemma CleanPlain(s: string)
    requires IsTrimmed(s)
    requires s == [] || (s[0] != '"' && s[|s| - 1] != '"')
    ensures CleanCell(s) == s
  {
    TrimTrimmed(s);
    StripUnquoted(s);
  }
}

=== FILE: wrappers.dfy ===
/** The optional-value datatype used throughout the model: `None` stands for
    JavaScript's `null` or `undefined` (each use site says which). */
module Wrappers {

  datatype Option<+T> = None | Some(value: T) {

    /** The wrapped value, or `default` when there is none. */
    function GetOr(default: T): T {
      match this
      case Some(v) => v
      case None => default
    }
  }
}
